=== FILE: README.md ===
# tiny_reddit core in Dafny

tiny_reddit is a small link-sharing site. Users register and sign in. They submit posts (a title and a link) and comment on posts or on other comments. They vote a submission up or down, and authors can delete their own submissions. This project models the logic underneath, and every piece is a pure function over explicit inputs:

- **The submission tree** (`Submissions`, `Ballots`, `Ids`, `Lookup`). A post or comment has an author, two vote lists and an ordered list of replies.
  - Votes are one per user.
  - Deletion replaces author, content and votes with a tombstone. The score of a deleted submission is -10000.
  - A comment's id is its parent comment's id followed by a fresh five-character block: two letters and three digits 1-9.
  - `Comment.find` searches the tree one block per depth.
- **Presentation order** (`Ordering`). Posts and comments are shown highest score first. `list_comments` walks the reply tree in pre-order, sorting each level on its own and indenting each level 20 more than its parent.
- **"… ago" labels** (`TimeLabels`). There are two implementations and they differ:
  - `TimeFormatter.calculate_elapsed` takes the smallest ratio among the units it fits at least once.
  - `calculate_time_passed` walks the units while the time strictly exceeds them.
- **Form validators and route decisions** (`Validation`, `Actions`).
  - The validators cover username, password, sign-in, post and comment. Each returns the message of the first check that fails.
  - The route decisions are the vote-choice dispatch and the author-only delete guard.

How the model stands in for the program's inputs:

- Randomness is an oracle: a sequence of draws, each of a shape the generator can produce.
- Elapsed time is an exact real number of seconds.
- BCrypt is a function parameter. The hash stored at registration is `seal`, and `correct_password?` is `correct`.
- A missing form field is `None`.

## Model

| member | source | states |
|---|---|---|
| Text.Strip | application.rb:143-145 | `String#strip`. The result is an infix of the input with only whitespace removed around it. It is empty exactly when the input is all whitespace, and otherwise neither begins nor ends with whitespace. |
| Text.Blank | application.rb:157 | `s.strip.empty?` holds exactly when every character of `s` is whitespace. |
| Text.DecimalRoundTrip | time_formatter.rb:21 | The count printed in a label reads back as the same number. |
| Ballots.Without | submission.rb:30 | `delete_if` keeps exactly the other names. It keeps a duplicate-free list duplicate-free and shortens it by one when the name was present. |
| Ballots.Upvote | submission.rb:28-31 | Afterwards the user is an upvoter and not a downvoter, and nobody else's votes change. One-vote-per-user is kept, and the tally moves by exactly the votes that changed. |
| Ballots.Downvote | submission.rb:33-36 | The mirror image of `upvote`. |
| Ballots.RemoveVote | submission.rb:38-41 | Afterwards the user is in neither list and nobody else's votes change. One-vote-per-user is kept, and the tally gives back the user's old vote. |
| Ballots.TallyCountsVoters | submission.rb:14-18 | With one vote per user, `upvotes.size - downvotes.size` equals the number of distinct upvoters minus the number of distinct downvoters. |
| Ballots.DistinctVoters | submission.rb:29 | A duplicate-free vote list has as many entries as voters. |
| Ballots.UpvoteIdempotent | submission.rb:28-31 | Upvoting twice is the same as upvoting once. |
| Ballots.DownvoteIdempotent | submission.rb:33-36 | Downvoting twice is the same as downvoting once. |
| Ballots.WithoutAppended | submission.rb:29-30 | Appending a new name and then deleting it gives the original list back. |
| Ballots.RemoveUndoesUpvote | submission.rb:28-41 | For a user who had not voted, `remove_vote` after `upvote` restores the lists exactly. |
| Ballots.RemoveUndoesDownvote | submission.rb:33-41 | For a user who had not voted, `remove_vote` after `downvote` restores the lists exactly. |
| Ids.LetterCountExtremes | submission.rb:115-120 | The letter count of an id equals its length exactly when every character is a letter, and is 0 exactly when none is. |
| Ids.DigitCountExtremes | submission.rb:115-120 | The same for the digits 1-9. |
| Ids.FirstFresh | submission.rb:108-111 | The draw loop stops at the first draw whose candidate is not taken. Every earlier candidate was taken. |
| Ids.NewCommentId | submission.rb:106-120 | A comment id is the prefix plus one block and differs from every sibling id. There is no id exactly when every supplied draw collides. |
| Ids.PostIdAsWritten | submission.rb:141-150 | As written, the first draw is kept when it is unused, and a collision ends in the raising retry. |
| Ids.NewPostId | submission.rb:141-150 | As intended, the id is an unused post-shaped draw. It fails only when every draw is used. |
| Ids.PostIdAgreesWithoutCollision | submission.rb:141-150 | When the first draw is unused, the code as written and the intended version give the same id. |
| Ids.PostIdRetryRaises | submission.rb:142-147 | When the first draw is used and the second is not, the code raises, while the intended loop returns the second draw. |
| Submissions.Score | submission.rb:14-18 | Deleted gives -10000. Live gives the number of upvoters minus the number of downvoters. |
| Submissions.Upvote | submission.rb:28-31 | On a live submission, afterwards `upvoted?` holds and `downvoted?` does not. Others' votes, the id, the author, the content and the replies are unchanged. The score rises by the votes changed. |
| Submissions.Downvote | submission.rb:33-36 | The mirror image of `upvote`, with the score falling by the votes changed. |
| Submissions.RemoveVote | submission.rb:38-41 | Afterwards neither `upvoted?` nor `downvoted?` holds, and everything else is unchanged. The score gives back the user's old vote. |
| Submissions.VoteQueriesExclusive | submission.rb:20-26 | On a live submission with one vote per user, `upvoted?` and `downvoted?` never both hold for the same user. |
| Submissions.SwitchToDeleted | submission.rb:53-67 | Afterwards `deleted?` holds and the score is -10000. The id, the kind and the whole reply tree are untouched. |
| Submissions.NumReplies | submission.rb:47-51 | `num_replies` equals the number of all descendants in the flattened reply tree. |
| Submissions.SumOfReplies | submission.rb:48-50 | The `inject` over a reply list counts every submission below it once. |
| Submissions.FlattenAppend | submission.rb:47-51 | Flattening distributes over appending reply lists. |
| Submissions.AddReply | submission.rb:43-45 | Exactly one live comment with no votes and no replies is appended, and every earlier reply stays in place. Its id is the parent-comment prefix (empty under a post) followed by a block, and it differs from every sibling id. |
| Submissions.AddReplyCountsOne | submission.rb:43-51 | A reply adds exactly one descendant. |
| Submissions.NewPost | submission.rb:126-131 | A new post has an unused post-shaped id, no replies, no votes and score 0. |
| Submissions.NewPostWellFormed | submission.rb:126-131 | A new post satisfies the tree invariant. |
| Submissions.AddReplyPreservesWellFormed | submission.rb:43-45 | Replying keeps the invariant: distinct sibling ids, and each id is its parent's id plus one block. |
| Submissions.VotesPreserveWellFormed | submission.rb:28-41 | Voting keeps the invariant. |
| Submissions.DeletePreservesWellFormed | submission.rb:53-59 | Deleting keeps the invariant. |
| Lookup.Slice | submission.rb:88-91 | Ruby's `s[a...b]` is nil when `a` is past the end, and otherwise the characters from `a` up to `b`, clipped at the end. |
| Lookup.Find | submission.rb:79-97 | Whatever `find` returns is a submission of the searched forest whose block at the target's last whole depth equals the target's block there. |
| Lookup.ScanReports | submission.rb:84-96 | The `each` loop ends with either the `comment_found` it started from or a submission of the remaining siblings' trees that matches the target's last block. |
| Lookup.ScanBeyondMaxDepth | submission.rb:79-97 | Below the depth of the target's last whole block, nothing is ever found. |
| Lookup.ShortTargetNotFound | submission.rb:80 | A target shorter than five characters finds nothing. |
| Lookup.ScanNoMatch | submission.rb:86-96 | When no sibling's block matches, `comment_found` keeps its value. |
| Lookup.ScanUniqueMatch | submission.rb:86-96 | When exactly one sibling's block matches, the result is that sibling at the last depth, and otherwise the search of its replies. |
| Lookup.FindComplete | submission.rb:79-97 | In a well-formed tree, `find` returns every comment whose id is the target up to trailing characters beyond the last whole block. |
| Lookup.FindCharacterised | submission.rb:79-97 | In a well-formed tree, anything found is a comment of the tree whose id is the target cut to whole blocks. Every comment with that id is found. |
| Lookup.FoundTargetStartsWithBlock | submission.rb:79-97 | A successful search was given a target that begins with a block. |
| Lookup.NonBlockTargetNotFound | submission.rb:79-97 | A target whose first five characters are not a block finds nothing. |
| Lookup.DigitsOnlyTargetNotFound | test/mini_reddit_test.rb:517-525 | The id `523532` finds no comment in any well-formed tree. |
| Lookup.TrailingCharactersIgnored | submission.rb:80-82 | `ab12345` finds the comment `ab123`. |
| Lookup.FirstMatchAtLastDepth | submission.rb:87-89 | At the last depth, the first matching sibling is returned. |
| Lookup.LaterMatchOverwrites | submission.rb:90-92 | Above the last depth, a later matching sibling overwrites what an earlier one found, even with nil. |
| Ordering.Insert | application.rb:94 | Inserting into an ascending list keeps it ascending and adds exactly that element. |
| Ordering.Reverse | application.rb:94 | `reverse` maps position `i` to position `n-1-i` and is a permutation. |
| Ordering.SortByScore | application.rb:89-95 | `sort_by(&:score).reverse` is a permutation of its input in non-increasing score order. |
| Ordering.DeletedSortLast | application.rb:89-95 | When every live score is above -10000, deleted submissions come after all live ones. |
| Ordering.EqualScoresAscendingUnchanged | application.rb:94 | The ascending sort leaves a list of equal scores as it is. |
| Ordering.EqualScoresReversed | application.rb:94 | Equal scores come out in reverse order of submission. |
| Ordering.SortExample | application.rb:89-91 | Scores 3, deleted, 1 are shown as 3, 1, deleted. |
| Ordering.Indented | application.rb:97-102 | The reference listing: every submission of the tree in pre-order, each at least as indented as its level. |
| Ordering.IndentedPermutation | application.rb:97-102 | Reordering siblings only reorders the lines of the listing. |
| Ordering.ListComments | application.rb:97-102 | Every line is indented at least the starting indent. |
| Ordering.ListCommentsPreOrder | application.rb:97-102 | The listing is a pre-order walk. Each line is followed, up to the next line at its own indent or less, by exactly the listing of that comment's replies, sorted by score and 20 further in. |
| Ordering.ListSortedPreOrder | application.rb:98-101 | The same holds for an already-sorted level. |
| Ordering.ListCommentsShowsTree | application.rb:97-102 | The listing shows every submission of the tree exactly once, at the same depth-derived indent as the unsorted pre-order. |
| Ordering.ListSortedShowsTree | application.rb:98-101 | The same holds for an already-sorted level. |
| Ordering.TopLevelInScoreOrder | application.rb:97-102 | The lines at the starting indent are exactly the top-level comments in score order. |
| Ordering.ListSortedTopLevel | application.rb:98-101 | The lines at a level's indent are that level's comments, in the order given. |
| Ordering.CommentOrderExample | test/mini_reddit_test.rb:495-506 | Replies FIRST and SECOND with equal scores, where SECOND has a reply "second": the listing is SECOND, "second" at 20, then FIRST. |
| TimeLabels.UnitFacts | time_formatter.rb:2-12 | There are six units in increasing order, and a year is 365 × 31 × 86400 seconds. |
| TimeLabels.Measures | time_formatter.rb:17 | Every unit appears with its ratio to the elapsed time. |
| TimeLabels.AtLeastOne | time_formatter.rb:18 | The kept entries are exactly those with a ratio of at least 1. |
| TimeLabels.MinByRatio | time_formatter.rb:19 | The chosen entry is present and has the smallest ratio. |
| TimeLabels.SmallestRatioIsLargestUnit | time_formatter.rb:17-19 | The smallest ratio of at least 1 belongs to the largest unit no longer than the elapsed time. |
| TimeLabels.Round | time_formatter.rb:20-21 | `Float#round` gives the nearest integer, with halves rounded away from zero. |
| TimeLabels.Singular | time_formatter.rb:20 | `unit[0...-1]` is the unit name minus its last character, so appending that character gives the name back. |
| TimeLabels.Render | time_formatter.rb:21 | The text is the decimal count, which reads back as the count, then a space, the unit word and " ago". |
| TimeLabels.UnitWord | time_formatter.rb:20 | The unit word is the plural name, with its trailing "s" dropped exactly when the count is 1. |
| TimeLabels.ElapsedLabel | time_formatter.rb:14-21 | Under one second the label is 1 "second". Otherwise the unit is the largest one no longer than the elapsed time, and the count is the rounded ratio, always at least 1. The unit is singular exactly when the count is 1. |
| TimeLabels.CalculateElapsed | time_formatter.rb:14-21 | Under one second the text is "1 second ago". Otherwise it is `"<n> <unit> ago"`: the unit is the largest one no longer than the elapsed time, `n` is the rounded ratio (at least 1), and the unit is singular exactly when `n` is 1. |
| TimeLabels.Walk | application.rb:116-120 | The walk either stops at once, keeping its unit and count, or ends at a unit strictly shorter than the elapsed time whose next unit is not, with the ratio to it. |
| TimeLabels.WalkFindsLargestBelow | application.rb:116-120 | The `each`/`break` walk stops at the largest unit strictly shorter than the elapsed time, with the ratio to it. |
| TimeLabels.TimePassedLabel | application.rb:112-123 | At most one second gives 1 "second". Otherwise the unit is the largest one strictly shorter than the elapsed time, with the rounded ratio, always at least 1. The unit is singular exactly when the rounded count is at most 1. |
| TimeLabels.CalculateTimePassed | application.rb:112-123 | At most one second gives "1 second ago". Otherwise the text is `"<n> <unit> ago"`: the unit is the largest one strictly shorter than the elapsed time, `n` is the rounded ratio (at least 1), and the unit is singular exactly when `n` is 1. |
| TimeLabels.LabelsAgreeOffBoundary | application.rb:112-123 | Except at exactly one minute, hour, day, month or year, both implementations give the same label. |
| TimeLabels.ElapsedOnBoundary | time_formatter.rb:17-20 | At exactly one unit, `calculate_elapsed` says 1 of that unit. |
| TimeLabels.TimePassedOnBoundary | application.rb:117-122 | At exactly one unit, `calculate_time_passed` counts the unit below it, a plural count above 1. |
| TimeLabelExamples.SixtySecondsLabels | application.rb:117 | At 60 s the labels are "1 minute ago" and "60 seconds ago". |
| TimeLabelExamples.TwoHoursLabel | time_formatter.rb:14-21 | At 7200 s both say "2 hours ago". |
| TimeLabelExamples.NinetySecondsLabel | time_formatter.rb:20-21 | At 90 s (1.5 minutes, rounded half away from zero) the label is "2 minutes ago". |
| TimeLabelExamples.UnderASecondLabel | time_formatter.rb:16 | Under one second both say "1 second ago". |
| Validation.StripKeepsCharacterCheck | application.rb:145-148 | Running the character check on the unstripped name gives the same verdict as on the stripped name. |
| Validation.NewUsernameError | application.rb:140-152 | Each message comes back exactly when its check fails and all earlier checks pass. The checks, in order: missing; blank; stripped length over 20; a character neither `\w` nor `\s`; stripped name already taken. No message means all five pass. |
| Validation.UsernameAcceptedIff | application.rb:140-152 | A name is accepted exactly when its stripped form is 1-20 word characters and inner spaces and is not taken. |
| Validation.UsernameLengthBoundary | application.rb:146 | A stripped length of exactly 20 passes, and 21 is refused. |
| Validation.NewPasswordError | application.rb:154-160 | There is an error exactly when the password is missing or all whitespace, with the matching message. |
| Validation.RegistrationError | application.rb:167-168 | A username error takes precedence over a password error. |
| Validation.Register | application.rb:162-175 | Registration fails with the first error. Otherwise the user list gains the stripped name with the sealed password. |
| Validation.RegisterKeepsNamesDistinct | application.rb:149-150 | Registration never creates a second user with an existing name. |
| Validation.Detect | application.rb:189 | `detect` yields the first user with exactly that name, or nothing when none has it. |
| Validation.SigninAttemptError | application.rb:188-200 | The checks, in order: unknown name (exact match); missing password; wrong password. No message means a user of that name accepts the password. |
| Validation.SigninSucceedsIff | application.rb:188-200 | With distinct names, signing in as a user succeeds exactly when that user's credential accepts the password. |
| Validation.LinkScheme | application.rb:230 | `link[0..3]` is the first four characters, or the whole link when shorter. |
| Validation.PostSubmissionError | application.rb:225-233 | The checks, in order: blank title or link; title over 100 characters, counted unstripped; link not starting with `http`. No message means all pass. |
| Validation.TitleLengthBoundary | application.rb:228 | A 100-character title passes, and 101 characters are refused. |
| Validation.CommentSubmissionError | application.rb:285-288 | There is a message exactly when the text is missing or all whitespace. |
| ValidationExamples.BadCharactersRejected | test/mini_reddit_test.rb:81-85 | `<>!!!User<><>` is refused for its characters. |
| ValidationExamples.LongNameRejected | test/mini_reddit_test.rb:87-91 | A 33-character name is refused as too long. |
| ValidationExamples.BlankNameRejected | test/mini_reddit_test.rb:93-97 | Five spaces are refused as blank. |
| ValidationExamples.DuplicateNameRejected | test/mini_reddit_test.rb:73-79 | `User` is refused when already taken. |
| ValidationExamples.BlankPasswordRejected | test/mini_reddit_test.rb:99-103 | A one-space password is refused. |
| ValidationExamples.NonHttpLinkRejected | test/mini_reddit_test.rb:169-175 | The link `a link` is refused. |
| ValidationExamples.EmptyTitleRejected | test/mini_reddit_test.rb:186-192 | An empty title is refused. |
| Actions.Vote | application.rb:386-390 | `upvote`, `downvote` and `remove` each apply the matching operation, and the user ends with exactly that vote. On a deleted submission the three choices raise. Any other choice leaves the submission unchanged, even when deleted. |
| Actions.VotePreservesWellFormed | application.rb:386-390 | A vote keeps the invariant of the voted submission's own reply tree. The post-level effect of a comment vote is Routes.CommentVoteLands. |
| Actions.VoteAll | application.rb:386-390 | A live submission stays live through any series of votes. The user ends upvoted or downvoted exactly when the last of the three vote choices was "upvote" or "downvote". With no such choice the submission is unchanged. Every other user keeps their vote. |
| Actions.TwoVoteScores | test/mini_reddit_test.rb:365-440 | On a fresh post, the scores after two votes by one user are: up, up gives 1; down, down gives -1; up, down gives -1; down, up gives 1; up, remove gives 0. |
| Actions.DeleteAsUser | application.rb:275-281 | Deletion happens exactly when a signed-in user is the author of a live submission. Otherwise the post or comment refusal message comes back. |
| Actions.DeleteOnce | application.rb:369-377 | Once deleted, a submission cannot be deleted again by anyone. |
| Actions.DeletePreservesTree | application.rb:278 | Deleting a post keeps the invariant of its own reply tree and its reply count. The post-level effect of a comment delete is Routes.CommentDeleteLands. |
| Routes.ReplaceAtWellFormed | application.rb:343-352 | Putting a comment with the same id and a well-formed subtree where a comment stood keeps the whole reply tree well formed. |
| Routes.ReplaceAtPlaces | application.rb:343-352 | If a comment with that id is in the tree, the new comment is in the updated tree. |
| Routes.NodeFits | submission.rb:79-97 | Every submission of a well-formed reply tree is a comment with sound votes and a well-formed subtree under its own id. |
| Routes.UpdateFoundLands | application.rb:343-352 | Updating the comment that `find` returned keeps the post well formed, and `find` with the same id then returns the updated comment. |
| Routes.CommentVote | application.rb:401-428 | The route reports "Sorry, that comment doesn't exist" exactly when `find` returns nil. It raises exactly when the choice is a vote and the found comment is deleted. In every other case the vote succeeds, and the post keeps its id and record. |
| Routes.CommentVoteLands | application.rb:410-420 | After a successful comment vote the post is well formed, and `find` returns the found comment with the vote applied. |
| Routes.CommentDelete | application.rb:359-378 | Missing comment, then the author check with "Only the user that submitted the comment can delete it". Each failure comes back exactly when its condition holds. |
| Routes.CommentDeleteLands | application.rb:366-374 | Deleting succeeds exactly for the signed-in author of a live found comment. Afterwards the post is well formed and `find` returns the tombstoned comment. |
| Routes.CommentReply | application.rb:333-357 | The checks, in order: missing comment; blank text; no fresh id among the draws. Each failure comes back exactly when its condition holds and the earlier ones pass. When all three pass, the reply succeeds. |
| Routes.CommentReplyLands | application.rb:343-352 | After a successful reply the post is well formed, and `find` returns the found comment with exactly the new reply added. |
| Routes.PostComment | application.rb:290-310 | A top-level comment is refused for blank text, and fails only when no draw is fresh. Otherwise it succeeds, and the result is `add_reply` on the post. |
| Routes.PostCommentKeepsPost | application.rb:305 | A top-level comment keeps the post well formed and raises its `num_replies` by one. |

## Left out

- Sinatra routes, sessions, the `auth` condition (a 401 response or a redirect with "Must be signed in to perfom this action"), ERB rendering and HTML escaping are left out. They are framework glue. The model keeps only the decisions the routes make.
- PStore loading and saving and the S3 sync are left out. They are file and network I/O.
- `user.rb` (BCrypt) is not part of this model. The stored credential and the password check are function parameters.
- `public/javascripts/application.js` is client-side UI.
- `Time.now`, `timestamp` and `timestamp_str` are replaced by an elapsed-seconds parameter. IEEE floating-point subtraction and rounding edge cases are not covered. The model uses exact reals with Ruby's `round` (halves away from zero).
- Randomness is replaced by an oracle sequence of draws. For comment ids, when every supplied draw collides the model answers `None`, where the program would keep drawing. For post ids the program draws again only after a collision, and that retry raises (see Findings).
- Submissions.NewPost: uses the corrected id loop Ids.NewPostId. As written, a collision with a used id raises instead of drawing again (Ids.PostIdAsWritten, Ids.PostIdRetryRaises).
- In-place mutation through object identity is modelled by rebuilding the tree. `find` returns the object itself and the comment routes mutate it, including `add_reply` on the found comment. Routes.ReplaceAt rebuilds the post's tree with the comment of that id replaced. In a well-formed tree sibling ids differ and every id starts with its parent's, so `find` reaches only the one comment with that id.
- Routes.CommentReply: the post's `num_replies` after a nested reply is not proved to grow by one. That needs ids to be unique across the whole tree. This follows from the path encoding in the tree invariant, but it is not proved. The top-level case is Routes.PostCommentKeepsPost.
- Ordering.SortByScore: Ruby's `sort_by` makes no stability promise. The model fixes one tie order: a stable ascending sort, then `reverse`. Only the permutation and the non-increasing order are what the program promises. EqualScoresReversed and CommentOrderExample describe that fixed tie order, which is the order the comment-order test relies on.
- Ordering.DeletedSortLast: a live score of -10000 or below would tie with or fall below deleted submissions, so the lemma assumes live scores above -10000.
- Text.Strip: Ruby's `strip` also removes NUL characters at the end. The model's whitespace set is the six characters of `\s`.
- Validation.PostSubmissionError: a missing title or link makes the code raise on `nil.strip`. The model takes both as strings.
- The test suite expects "alphanumeric characters" and "perform this action". The code says "chacters" and "perfom", and the model keeps the code's strings.
- At 90 s the code rounds 1.5 minutes half away from zero and prints "2 minutes ago" (TimeLabelExamples.NinetySecondsLabel).

## Findings

| source | as written | input that shows it | evidently intended | confidence | as-written member | corrected member |
|---|---|---|---|---|---|---|
| submission.rb:142-147 | `id` starts as an Array, but after the first pass it is a String. On a collision the loop appends to that String and calls `shuffle` on it, which raises `NoMethodError`. | `used_ids` containing the first drawn id but not the second | Redraw a fresh 12-character id until it is unused | not executed | Ids.PostIdAsWritten (with Ids.PostIdRetryRaises) | Ids.NewPostId |

=== FILE: actions.dfy ===
/**
 * The two decisions the vote and delete routes make about a submission:
 * which vote operation a form's `choice` selects, and whether the signed-in
 * user may delete it.
 */
module Actions {
  import opened Options
  import Ballots
  type UserName = Ballots.UserName
  import opened Submissions

  /** Voting on a deleted submission raises (its vote lists are gone). */
  datatype VoteError = VotedOnDeleted

  /** The three choices that reach a vote operation. */
  predicate IsVoteChoice(choice: string)
  {
    choice == "upvote" || choice == "downvote" || choice == "remove"
  }

  /** The `case choice` of both vote routes, applied to one submission. */
  function Vote(s: Submission, choice: string, user: UserName): (r: Result<Submission, VoteError>)
    ensures !IsVoteChoice(choice) ==> r == Ok(s)
    ensures IsVoteChoice(choice) ==> (r.Err? <==> IsDeleted(s))
    ensures r.Ok? ==> r.value.id == s.id && r.value.kind == s.kind && r.value.replies == s.replies
    ensures r.Ok? && IsVoteChoice(choice) ==>
              && !IsDeleted(r.value)
              && r.value.standing.author == s.standing.author
              && r.value.standing.content == s.standing.content
              && (Upvoted(r.value, user) <==> choice == "upvote")
              && (Downvoted(r.value, user) <==> choice == "downvote")
              && forall x :: x != user ==>
                   (Upvoted(r.value, x) <==> Upvoted(s, x)) && (Downvoted(r.value, x) <==> Downvoted(s, x))
  {
    if !IsVoteChoice(choice) then Ok(s)
    else if IsDeleted(s) then Err(VotedOnDeleted)
    else if choice == "upvote" then Ok(Upvote(s, user))
    else if choice == "downvote" then Ok(Downvote(s, user))
    else Ok(RemoveVote(s, user))
  }

  /** A vote keeps the one-vote-per-user and id invariants of the whole tree. */
  lemma VotePreservesWellFormed(s: Submission, choice: string, user: UserName)
    requires WellFormed(s)
    ensures Vote(s, choice, user).Ok? ==> WellFormed(Vote(s, choice, user).value)
  {
    if !IsDeleted(s) {
      VotesPreserveWellFormed(s, user);
    }
  }

  /** The last of `choices` that reaches a vote operation, if any. */
  function LastVoteChoice(choices: seq<string>): Option<string>
    decreases |choices|
  {
    if |choices| == 0 then None
    else match LastVoteChoice(choices[1..])
      case Some(c) => Some(c)
      case None => if IsVoteChoice(choices[0]) then Some(choices[0]) else None
  }

  /**
   * Apply the choices one after another, as successive requests by one user.
   * The user ends with the vote state of the last real vote choice, and
   * every other user keeps theirs.
   */
  function VoteAll(s: Submission, choices: seq<string>, user: UserName): (r: Result<Submission, VoteError>)
    ensures r.Ok? ==> r.value.id == s.id && r.value.replies == s.replies
    ensures !IsDeleted(s) <==> r.Ok? && !IsDeleted(r.value)
    ensures LastVoteChoice(choices).None? ==> r == Ok(s)
    ensures r.Ok? && !IsDeleted(s) && LastVoteChoice(choices).Some? ==>
              && (Upvoted(r.value, user) <==> LastVoteChoice(choices).value == "upvote")
              && (Downvoted(r.value, user) <==> LastVoteChoice(choices).value == "downvote")
    ensures r.Ok? && !IsDeleted(s) ==>
              forall x :: x != user ==>
                (Upvoted(r.value, x) <==> Upvoted(s, x)) && (Downvoted(r.value, x) <==> Downvoted(s, x))
    decreases |choices|
  {
    if |choices| == 0 then Ok(s)
    else
      match Vote(s, choices[0], user)
      case Err(e) => Err(e)
      case Ok(t) => VoteAll(t, choices[1..], user)
  }

  /** A submission no one has voted on yet. */
  predicate Unvoted(s: Submission)
  {
    !IsDeleted(s) && s.standing.ballot == Ballots.Empty
  }

  lemma {:induction false} VoteTwice(s: Submission, first: string, second: string, user: UserName)
    requires !IsDeleted(s) && IsVoteChoice(first)
    ensures VoteAll(s, [first, second], user) == Vote(Vote(s, first, user).value, second, user)
  {
    var t := Vote(s, first, user).value;
    assert [first, second][1..] == [second];
    assert [second][1..] == [];
    match Vote(t, second, user)
    case Err(_) =>
    case Ok(t2) =>
      assert VoteAll(t2, [], user) == Ok(t2);
  }

  /**
   * The score after two votes by the same user on a fresh submission, as
   * the voting tests expect: a repeated vote counts once, a second choice
   * replaces the first, and "remove" returns to 0.
   */
  lemma {:induction false} TwoVoteScores(s: Submission, user: UserName)
    requires Unvoted(s)
    ensures Score(VoteAll(s, ["upvote", "upvote"], user).value) == 1
    ensures Score(VoteAll(s, ["downvote", "downvote"], user).value) == -1
    ensures Score(VoteAll(s, ["upvote", "downvote"], user).value) == -1
    ensures Score(VoteAll(s, ["downvote", "upvote"], user).value) == 1
    ensures Score(VoteAll(s, ["upvote", "remove"], user).value) == 0
  {
    assert Ballots.Valid(s.standing.ballot);
    assert Score(s) == 0;
    VoteTwice(s, "upvote", "upvote", user);
    VoteTwice(s, "downvote", "downvote", user);
    VoteTwice(s, "upvote", "downvote", user);
    VoteTwice(s, "downvote", "upvote", user);
    VoteTwice(s, "upvote", "remove", user);
  }

  const PostDeleteRefused := "Posts can only be deleted by the user that submitted them"
  const CommentDeleteRefused := "Only the user that submitted the comment can delete it"

  /**
   * The author check of both delete routes: only a signed-in user equal to
   * the author may delete. A deleted submission's author is the tombstone,
   * which no session user equals, so deleting twice is refused.
   */
  function DeleteAsUser(user: Option<UserName>, s: Submission): (r: Result<Submission, string>)
    ensures r.Ok? <==> user.Some? && !IsDeleted(s) && s.standing.author == user.value
    ensures r.Err? ==> r.error == (if s.kind == PostKind then PostDeleteRefused else CommentDeleteRefused)
    ensures r.Ok? ==> IsDeleted(r.value) && r.value.id == s.id && r.value.kind == s.kind
                      && r.value.replies == s.replies
  {
    if user.None? || IsDeleted(s) || user.value != s.standing.author then
      Err(if s.kind == PostKind then PostDeleteRefused else CommentDeleteRefused)
    else Ok(SwitchToDeleted(s))
  }

  /** Whoever asks, a submission can be deleted at most once. */
  lemma DeleteOnce(user: Option<UserName>, other: Option<UserName>, s: Submission)
    requires DeleteAsUser(user, s).Ok?
    ensures DeleteAsUser(other, DeleteAsUser(user, s).value).Err?
  {
  }

  /** Deletion keeps the tree invariant and the replies. */
  lemma DeletePreservesTree(user: Option<UserName>, s: Submission)
    requires WellFormed(s)
    ensures DeleteAsUser(user, s).Ok? ==>
              WellFormed(DeleteAsUser(user, s).value) && NumReplies(DeleteAsUser(user, s).value) == NumReplies(s)
  {
    if DeleteAsUser(user, s).Ok? {
      DeletePreservesWellFormed(s);
    }
  }
}

=== FILE: ballots.dfy ===
/**
 * The two vote lists every submission carries, and the three operations
 * that change them (`upvote`, `downvote`, `remove_vote`).
 */
module Ballots {

  type UserName = string

  /** `@upvotes` and `@downvotes`: user names in the order they voted. */
  datatype Ballot = Ballot(upvotes: seq<UserName>, downvotes: seq<UserName>)

  /** The lists of a freshly constructed submission. */
  const Empty := Ballot([], [])

  predicate NoDuplicates(s: seq<UserName>)
  {
    forall i, j :: 0 <= i < j < |s| ==> s[i] != s[j]
  }

  /** One vote per user: neither list repeats a name and no name is in both. */
  predicate Valid(b: Ballot)
  {
    && NoDuplicates(b.upvotes)
    && NoDuplicates(b.downvotes)
    && forall u :: u in b.upvotes ==> u !in b.downvotes
  }

  /** The user names in a list, as a set. */
  function Voters(s: seq<UserName>): set<UserName>
  {
    set u | u in s
  }

  /** `upvotes.size - downvotes.size`. */
  function Tally(b: Ballot): int
  {
    |b.upvotes| - |b.downvotes|
  }

  /** `delete_if { |x| x == u }`: drops every occurrence of `u`, keeping the order of the rest. */
  function Without(s: seq<UserName>, u: UserName): (r: seq<UserName>)
    ensures forall x :: x in r <==> x in s && x != u
    ensures u !in s ==> r == s
    ensures NoDuplicates(s) ==> NoDuplicates(r)
    ensures NoDuplicates(s) && u in s ==> |r| == |s| - 1
  {
    if |s| == 0 then []
    else
      var rest := Without(s[1..], u);
      if s[0] == u then rest
      else
        assert s == [s[0]] + s[1..];
        assert NoDuplicates(s) ==> s[0] !in s[1..] && s[0] !in rest;
        [s[0]] + rest
  }

  /** `upvote(u)`: append `u` unless already there, then drop it from the downvotes. */
  function Upvote(b: Ballot, u: UserName): (r: Ballot)
    ensures u in r.upvotes && u !in r.downvotes
    ensures forall x :: x != u ==> (x in r.upvotes <==> x in b.upvotes) && (x in r.downvotes <==> x in b.downvotes)
    ensures Valid(b) ==> Valid(r)
    ensures Valid(b) ==> Tally(r) == Tally(b) + (if u in b.upvotes then 0 else 1) + (if u in b.downvotes then 1 else 0)
  {
    Ballot(if u in b.upvotes then b.upvotes else b.upvotes + [u], Without(b.downvotes, u))
  }

  /** `downvote(u)`: the mirror image of `Upvote`. */
  function Downvote(b: Ballot, u: UserName): (r: Ballot)
    ensures u in r.downvotes && u !in r.upvotes
    ensures forall x :: x != u ==> (x in r.upvotes <==> x in b.upvotes) && (x in r.downvotes <==> x in b.downvotes)
    ensures Valid(b) ==> Valid(r)
    ensures Valid(b) ==> Tally(r) == Tally(b) - (if u in b.downvotes then 0 else 1) - (if u in b.upvotes then 1 else 0)
  {
    Ballot(Without(b.upvotes, u), if u in b.downvotes then b.downvotes else b.downvotes + [u])
  }

  /** `remove_vote(u)`: drops `u` from both lists. */
  function RemoveVote(b: Ballot, u: UserName): (r: Ballot)
    ensures u !in r.upvotes && u !in r.downvotes
    ensures forall x :: x != u ==> (x in r.upvotes <==> x in b.upvotes) && (x in r.downvotes <==> x in b.downvotes)
    ensures Valid(b) ==> Valid(r)
    ensures Valid(b) ==> Tally(r) == Tally(b) - (if u in b.upvotes then 1 else 0) + (if u in b.downvotes then 1 else 0)
  {
    Ballot(Without(b.upvotes, u), Without(b.downvotes, u))
  }

  /** A list without repeats has as many entries as distinct voters. */
  lemma {:induction false} DistinctVoters(s: seq<UserName>)
    requires NoDuplicates(s)
    ensures |Voters(s)| == |s|
  {
    if |s| > 0 {
      var rest := s[1..];
      assert NoDuplicates(rest);
      DistinctVoters(rest);
      assert Voters(s) == {s[0]} + Voters(rest);
      assert s[0] !in Voters(rest);
    }
  }

  /** On a valid ballot the tally counts voters: distinct upvoters minus distinct downvoters. */
  lemma TallyCountsVoters(b: Ballot)
    requires Valid(b)
    ensures Tally(b) == |Voters(b.upvotes)| - |Voters(b.downvotes)|
    ensures Voters(b.upvotes) !! Voters(b.downvotes)
  {
    DistinctVoters(b.upvotes);
    DistinctVoters(b.downvotes);
  }

  /** Repeating an upvote changes nothing. */
  lemma UpvoteIdempotent(b: Ballot, u: UserName)
    ensures Upvote(Upvote(b, u), u) == Upvote(b, u)
  {
  }

  /** Repeating a downvote changes nothing. */
  lemma DownvoteIdempotent(b: Ballot, u: UserName)
    ensures Downvote(Downvote(b, u), u) == Downvote(b, u)
  {
  }

  lemma {:induction false} WithoutAppended(s: seq<UserName>, u: UserName)
    requires u !in s
    ensures Without(s + [u], u) == s
  {
    if |s| > 0 {
      assert (s + [u])[1..] == s[1..] + [u];
      WithoutAppended(s[1..], u);
    } else {
      assert [u][1..] == [];
    }
  }

  /** A user who had not voted, upvotes and then removes the vote: the ballot is as before. */
  lemma RemoveUndoesUpvote(b: Ballot, u: UserName)
    requires u !in b.upvotes && u !in b.downvotes
    ensures RemoveVote(Upvote(b, u), u) == b
  {
    WithoutAppended(b.upvotes, u);
  }

  /** A user who had not voted, downvotes and then removes the vote: the ballot is as before. */
  lemma RemoveUndoesDownvote(b: Ballot, u: UserName)
    requires u !in b.upvotes && u !in b.downvotes
    ensures RemoveVote(Downvote(b, u), u) == b
  {
    WithoutAppended(b.downvotes, u);
  }
}

=== FILE: ids.dfy ===
/**
 * Identifier shapes and the draw-until-fresh loops that produce them.
 * Randomness is replaced by an oracle: a sequence of draws, each of a shape
 * the random generator can produce, consumed in order.
 */
module Ids {
  import opened Options
  import opened Text

  /** How many characters of `s` are lower-case letters. */
  function LetterCount(s: string): (n: nat)
    ensures n <= |s|
  {
    if |s| == 0 then 0 else (if IsLowerLetter(s[0]) then 1 else 0) + LetterCount(s[1..])
  }

  /** How many characters of `s` are the digits 1-9. */
  function DigitCount(s: string): (n: nat)
    ensures n <= |s|
  {
    if |s| == 0 then 0 else (if IsNonZeroDigit(s[0]) then 1 else 0) + DigitCount(s[1..])
  }

  /** The letter count is the length exactly when every character is a letter, and 0 exactly when none is. */
  lemma {:induction false} LetterCountExtremes(s: string)
    ensures LetterCount(s) == |s| <==> forall i :: 0 <= i < |s| ==> IsLowerLetter(s[i])
    ensures LetterCount(s) == 0 <==> forall i :: 0 <= i < |s| ==> !IsLowerLetter(s[i])
  {
    if |s| > 0 {
      LetterCountExtremes(s[1..]);
      assert forall i :: 1 <= i < |s| ==> s[i] == s[1..][i - 1];
    }
  }

  /** The same for the digit count. */
  lemma {:induction false} DigitCountExtremes(s: string)
    ensures DigitCount(s) == |s| <==> forall i :: 0 <= i < |s| ==> IsNonZeroDigit(s[i])
    ensures DigitCount(s) == 0 <==> forall i :: 0 <= i < |s| ==> !IsNonZeroDigit(s[i])
  {
    if |s| > 0 {
      DigitCountExtremes(s[1..]);
      assert forall i :: 1 <= i < |s| ==> s[i] == s[1..][i - 1];
    }
  }

  /**
   * A comment id block, every string `create_random_string` can return:
   * two lower-case letters and three digits 1-9 in any order.
   */
  predicate IsBlock(b: string)
  {
    |b| == 5 && LetterCount(b) == 2 && DigitCount(b) == 3
  }

  /** A post id: six lower-case letters and six digits 1-9 in any order. */
  predicate IsPostId(s: string)
  {
    |s| == 12 && LetterCount(s) == 6 && DigitCount(s) == 6
  }

  /**
   * Index of the first draw whose candidate `prefix + draw` is not taken;
   * `|draws|` when every draw collides.
   */
  function FirstFresh(prefix: string, taken: seq<string>, draws: seq<string>): (k: nat)
    ensures k <= |draws|
    ensures forall j :: 0 <= j < k ==> prefix + draws[j] in taken
    ensures k < |draws| ==> prefix + draws[k] !in taken
  {
    if |draws| == 0 then 0
    else if prefix + draws[0] !in taken then 0
    else 1 + FirstFresh(prefix, taken, draws[1..])
  }

  /**
   * `Comment#generate_new_id`: the candidate is the parent-comment prefix
   * followed by a fresh block, redrawn while a sibling already has it.
   */
  function NewCommentId(prefix: string, siblingIds: seq<string>, draws: seq<string>): (r: Option<string>)
    requires forall i :: 0 <= i < |draws| ==> IsBlock(draws[i])
    ensures r.Some? ==> r.value !in siblingIds
    ensures r.Some? ==> |r.value| == |prefix| + 5 && r.value[..|prefix|] == prefix && IsBlock(r.value[|prefix|..])
    ensures r.None? <==> forall i :: 0 <= i < |draws| ==> prefix + draws[i] in siblingIds
  {
    var k := FirstFresh(prefix, siblingIds, draws);
    if k < |draws| then
      var id := prefix + draws[k];
      assert IsBlock(draws[k]);
      assert id[..|prefix|] == prefix && id[|prefix|..] == draws[k];
      Some(id)
    else None
  }

  /** Why `Post#generate_new_id` did not return an id. */
  datatype PostIdFailure =
    | RetryRaises    // the second pass calls `shuffle` on a String
    | DrawsExhausted // the oracle ran out before a fresh id came up

  /**
   * `Post#generate_new_id` as written: the first draw is kept when it is
   * unused; on a collision the retry raises `NoMethodError`.
   */
  function PostIdAsWritten(usedIds: seq<string>, draw: string): (r: Result<string, PostIdFailure>)
    requires IsPostId(draw)
    ensures r.Ok? ==> r.value !in usedIds && IsPostId(r.value)
    ensures r.Err? <==> draw in usedIds
    ensures r.Err? ==> r.error == RetryRaises
  {
    if draw in usedIds then Err(RetryRaises) else Ok(draw)
  }

  /** `Post#generate_new_id` as intended: redraw until the id is unused. */
  function NewPostId(usedIds: seq<string>, draws: seq<string>): (r: Result<string, PostIdFailure>)
    requires forall i :: 0 <= i < |draws| ==> IsPostId(draws[i])
    ensures r.Ok? ==> r.value !in usedIds && IsPostId(r.value) && r.value in draws
    ensures r.Err? <==> forall i :: 0 <= i < |draws| ==> draws[i] in usedIds
    ensures r.Err? ==> r.error == DrawsExhausted
  {
    var k := FirstFresh("", usedIds, draws);
    assert forall j :: 0 <= j < |draws| ==> "" + draws[j] == draws[j];
    if k < |draws| then Ok(draws[k]) else Err(DrawsExhausted)
  }

  /** The two agree whenever the first draw is unused. */
  lemma PostIdAgreesWithoutCollision(usedIds: seq<string>, draws: seq<string>)
    requires |draws| > 0 && forall i :: 0 <= i < |draws| ==> IsPostId(draws[i])
    requires draws[0] !in usedIds
    ensures PostIdAsWritten(usedIds, draws[0]) == NewPostId(usedIds, draws) == Ok(draws[0])
  {
    assert "" + draws[0] == draws[0];
  }

  /**
   * The inputs on which the code as written raises although a fresh id is
   * one draw away: the used ids hold the first draw but not the second.
   */
  lemma PostIdRetryRaises(usedIds: seq<string>, draws: seq<string>)
    requires |draws| >= 2 && forall i :: 0 <= i < |draws| ==> IsPostId(draws[i])
    requires draws[0] in usedIds && draws[1] !in usedIds
    ensures PostIdAsWritten(usedIds, draws[0]) == Err(RetryRaises)
    ensures NewPostId(usedIds, draws) == Ok(draws[1])
  {
    assert "" + draws[0] == draws[0] && "" + draws[1] == draws[1];
    assert draws[1..][0] == draws[1];
  }
}

=== FILE: lookup.dfy ===
/**
 * `Comment.find`: the depth-sliced search of a reply tree by a
 * path-encoded comment id, one five-character block per level.
 */
module Lookup {
  import opened Options
  import opened Ids
  import opened Submissions

  /** Ruby's `s[start...stop]`: nil when `start` is past the end, clipped at the end otherwise. */
  function Slice(s: string, start: nat, stop: nat): (r: Option<string>)
    requires start <= stop
    ensures r.Some? <==> start <= |s|
    ensures stop <= |s| ==> r == Some(s[start..stop])
    ensures start <= |s| < stop ==> r == Some(s[start..|s|])
    ensures r.Some? ==> |r.value| <= stop - start
  {
    if start > |s| then None else Some(s[start..if stop < |s| then stop else |s|])
  }

  /** The block of `s` that belongs to nesting depth `depth`. */
  function SliceAt(s: string, depth: nat): Option<string>
  {
    Slice(s, 5 * depth, 5 * depth + 5)
  }

  /** `(comment_id.length / 5) - 1`: the depth whose block ends the target. */
  function MaxDepth(target: string): int
  {
    |target| / 5 - 1
  }

  /** The part of the target the search looks at: whole blocks only. */
  function Truncated(target: string): string
  {
    target[..5 * (|target| / 5)]
  }

  /** Whether `c`'s block at the target's last depth is the target's block there. */
  predicate MatchesLastBlock(c: Submission, target: string)
  {
    MaxDepth(target) >= 0 && SliceAt(c.id, MaxDepth(target)) == SliceAt(target, MaxDepth(target))
  }

  /**
   * `Comment.find(comments, comment_id, depth)`: whatever it reports is a
   * submission of the forest that agrees with the target at its last depth.
   */
  function Find(comments: seq<Submission>, target: string, depth: nat): (r: Option<Submission>)
    ensures r.Some? ==> r.value in Flatten(comments) && MatchesLastBlock(r.value, target)
  {
    ScanReports(comments, target, depth, None);
    Scan(comments, target, depth, None)
  }

  /**
   * The `each` loop of `find` over the remaining siblings `cs`, with
   * `found` the current value of `comment_found`: at the last depth the
   * first matching sibling is returned at once; above it, every matching
   * sibling overwrites `found` with the search of its own replies.
   */
  function Scan(cs: seq<Submission>, target: string, depth: nat, found: Option<Submission>): Option<Submission>
    decreases cs
  {
    if |cs| == 0 then found
    else if depth == MaxDepth(target) then
      if SliceAt(cs[0].id, depth) == SliceAt(target, depth) then Some(cs[0])
      else Scan(cs[1..], target, depth, found)
    else if SliceAt(cs[0].id, depth) == SliceAt(target, depth) then
      Scan(cs[1..], target, depth, Scan(cs[0].replies, target, depth + 1, None))
    else Scan(cs[1..], target, depth, found)
  }

  /**
   * In any forest, well formed or not, whatever a scan reports is either
   * the value it started with or a submission of the forest that agrees
   * with the target at the target's last depth. (A matching sibling above
   * the last depth may also overwrite the value with nil.)
   */
  lemma {:induction false} ScanReports(cs: seq<Submission>, target: string, depth: nat, found: Option<Submission>)
    ensures var r := Scan(cs, target, depth, found);
            r.Some? ==> r == found || (r.value in Flatten(cs) && MatchesLastBlock(r.value, target))
    decreases cs
  {
    if |cs| > 0 {
      var r := Scan(cs, target, depth, found);
      assert Flatten(cs) == [cs[0]] + Flatten(cs[0].replies) + Flatten(cs[1..]);
      if depth == MaxDepth(target) {
        if SliceAt(cs[0].id, depth) != SliceAt(target, depth) {
          ScanReports(cs[1..], target, depth, found);
        }
      } else if SliceAt(cs[0].id, depth) == SliceAt(target, depth) {
        var inner := Scan(cs[0].replies, target, depth + 1, None);
        ScanReports(cs[0].replies, target, depth + 1, None);
        ScanReports(cs[1..], target, depth, inner);
        assert r == Scan(cs[1..], target, depth, inner);
      } else {
        ScanReports(cs[1..], target, depth, found);
      }
    }
  }

  /** Below the last depth nothing is returned: the search only ever reports `nil`. */
  lemma {:induction false} ScanBeyondMaxDepth(cs: seq<Submission>, target: string, depth: nat)
    requires depth > MaxDepth(target)
    ensures Scan(cs, target, depth, None) == None
    decreases cs
  {
    if |cs| > 0 {
      ScanBeyondMaxDepth(cs[0].replies, target, depth + 1);
      ScanBeyondMaxDepth(cs[1..], target, depth);
    }
  }

  /** Targets shorter than one block are never found. */
  lemma ShortTargetNotFound(cs: seq<Submission>, target: string)
    requires |target| < 5
    ensures Find(cs, target, 0) == None
  {
    ScanBeyondMaxDepth(cs, target, 0);
  }

  /** When no sibling matches, `comment_found` is left as it was. */
  lemma {:induction false} ScanNoMatch(cs: seq<Submission>, target: string, depth: nat, found: Option<Submission>)
    requires forall j :: 0 <= j < |cs| ==> SliceAt(cs[j].id, depth) != SliceAt(target, depth)
    ensures Scan(cs, target, depth, found) == found
    decreases |cs|
  {
    if |cs| > 0 {
      ScanNoMatch(cs[1..], target, depth, found);
    }
  }

  /** When exactly one sibling matches, the search reports that sibling or what its replies yield. */
  lemma {:induction false} ScanUniqueMatch(cs: seq<Submission>, target: string, depth: nat, found: Option<Submission>, i: nat)
    requires i < |cs|
    requires SliceAt(cs[i].id, depth) == SliceAt(target, depth)
    requires forall j :: 0 <= j < |cs| && j != i ==> SliceAt(cs[j].id, depth) != SliceAt(target, depth)
    ensures Scan(cs, target, depth, found) ==
            if depth == MaxDepth(target) then Some(cs[i]) else Scan(cs[i].replies, target, depth + 1, None)
    decreases i
  {
    if i == 0 {
      if depth != MaxDepth(target) {
        ScanNoMatch(cs[1..], target, depth, Scan(cs[0].replies, target, depth + 1, None));
      }
    } else {
      ScanUniqueMatch(cs[1..], target, depth, found, i - 1);
    }
  }

  /** Membership in the flattened forest: a root, or a descendant of one. */
  lemma {:induction false} FlattenMember(cs: seq<Submission>, n: Submission)
    requires n in Flatten(cs)
    ensures exists i :: 0 <= i < |cs| && (n == cs[i] || n in Flatten(cs[i].replies))
    decreases |cs|
  {
    if n != cs[0] && n !in Flatten(cs[0].replies) {
      FlattenMember(cs[1..], n);
      var i :| 0 <= i < |cs[1..]| && (n == cs[1..][i] || n in Flatten(cs[1..][i].replies));
      assert cs[1..][i] == cs[i + 1];
    }
  }

  lemma {:induction false} FlattenContainsRoots(cs: seq<Submission>, i: nat)
    requires i < |cs|
    ensures cs[i] in Flatten(cs)
    ensures forall n :: n in Flatten(cs[i].replies) ==> n in Flatten(cs)
    decreases i
  {
    if i > 0 {
      FlattenContainsRoots(cs[1..], i - 1);
      assert cs[1..][i - 1] == cs[i];
    }
  }

  /** In a well-formed forest every id extends the prefix by whole blocks. */
  lemma {:induction false} DescendantIdShape(cs: seq<Submission>, prefix: string, n: Submission)
    requires WellFormedReplies(cs, prefix)
    requires n in Flatten(cs)
    ensures |n.id| >= |prefix| + 5 && (|n.id| - |prefix|) % 5 == 0
    ensures n.id[..|prefix|] == prefix && IsBlock(n.id[|prefix|..|prefix| + 5])
    decreases cs
  {
    var i := RootHolding(cs, n);
    var c := cs[i];
    assert |c.id| == |prefix| + 5 && c.id[..|prefix|] == prefix && IsBlock(c.id[|prefix|..])
        && WellFormedReplies(c.replies, c.id) by {
      assert WellFormedReply(c, prefix);
    }
    if n != c {
      DescendantIdShape(c.replies, c.id, n);
      assert n.id[..|prefix| + 5] == c.id;
      assert n.id[..|prefix|] == c.id[..|prefix|];
      assert n.id[|prefix|..|prefix| + 5] == c.id[|prefix|..];
      OneMoreBlock(|n.id| - |c.id|);
    } else {
      assert n.id[|prefix|..|prefix| + 5] == c.id[|prefix|..];
    }
  }

  /** Adding one block keeps a length a whole number of blocks. */
  lemma OneMoreBlock(len: int)
    requires len % 5 == 0
    ensures (len + 5) % 5 == 0
  {
  }

  /** Siblings of a well-formed forest differ in the block of their own depth. */
  lemma SiblingBlocksDiffer(cs: seq<Submission>, prefix: string, depth: nat, i: nat, j: nat)
    requires WellFormedReplies(cs, prefix) && |prefix| == 5 * depth
    requires i < |cs| && j < |cs| && i != j
    ensures SliceAt(cs[i].id, depth) != SliceAt(cs[j].id, depth)
  {
    assert WellFormedReply(cs[i], prefix) && WellFormedReply(cs[j], prefix);
    var a, b := cs[i].id, cs[j].id;
    assert a == a[..|prefix|] + a[|prefix|..] && b == b[..|prefix|] + b[|prefix|..];
    assert |a| == 5 * depth + 5 && |b| == 5 * depth + 5;
    assert a[5 * depth..5 * depth + 5] == a[|prefix|..] && b[5 * depth..5 * depth + 5] == b[|prefix|..];
    assert SliceAt(a, depth) == Some(a[|prefix|..]);
    assert SliceAt(b, depth) == Some(b[|prefix|..]);
    if i < j {
      assert a != b;
    } else {
      assert b != a;
    }
  }

  /** A block of an id that is a prefix of the target matches the target's block at that depth. */
  lemma PrefixSliceMatches(id: string, target: string, depth: nat)
    requires id <= target && |id| == 5 * depth + 5
    ensures SliceAt(id, depth) == SliceAt(target, depth) == Some(id[5 * depth..])
  {
    assert |id| <= |target| && target[..|id|] == id;
    assert target[5 * depth..5 * depth + 5] == target[..|id|][5 * depth..];
    assert SliceAt(target, depth) == Slice(target, 5 * depth, 5 * depth + 5) == Some(target[5 * depth..5 * depth + 5]);
    assert SliceAt(id, depth) == Some(id[5 * depth..5 * depth + 5]);
    assert id[5 * depth..5 * depth + 5] == id[5 * depth..];
  }

  /** The last depth of a target that extends an id by fewer than five characters is the id's. */
  lemma MaxDepthOfExtension(id: string, target: string)
    requires |id| % 5 == 0 && |id| <= |target| < |id| + 5
    ensures MaxDepth(target) == |id| / 5 - 1
  {
  }

  /** A length that exceeds a whole number of blocks by whole blocks is itself whole blocks. */
  lemma WholeBlocks(len: nat, blocks: nat)
    requires len >= 5 * blocks && (len - 5 * blocks) % 5 == 0
    ensures len % 5 == 0
  {
    var q := (len - 5 * blocks) / 5;
    assert len == 5 * (q + blocks);
  }

  /** A descendant's id starts with the id of the root it hangs under. */
  lemma DescendantExtendsRoot(c: Submission, n: Submission)
    requires WellFormedReplies(c.replies, c.id)
    requires n in Flatten(c.replies)
    ensures c.id <= n.id && |n.id| >= |c.id| + 5
  {
    DescendantIdShape(c.replies, c.id, n);
  }

  /** The root of a well-formed forest that holds a given submission. */
  lemma RootHolding(cs: seq<Submission>, n: Submission) returns (i: nat)
    requires n in Flatten(cs)
    ensures i < |cs| && (n == cs[i] || n in Flatten(cs[i].replies))
  {
    FlattenMember(cs, n);
    i :| 0 <= i < |cs| && (n == cs[i] || n in Flatten(cs[i].replies));
  }

  /**
   * The root holding `n` is the one sibling whose block matches a target
   * that extends `n`'s id, and the target's last depth is this one exactly
   * when `n` is that root.
   */
  lemma RootMatches(cs: seq<Submission>, prefix: string, depth: nat, n: Submission, target: string, i: nat)
    requires WellFormedReplies(cs, prefix) && |prefix| == 5 * depth
    requires i < |cs| && (n == cs[i] || n in Flatten(cs[i].replies))
    requires n in Flatten(cs)
    requires n.id <= target && |target| < |n.id| + 5
    ensures SliceAt(cs[i].id, depth) == SliceAt(target, depth)
    ensures depth == MaxDepth(target) <==> n == cs[i]
  {
    var c := cs[i];
    assert |c.id| == 5 * depth + 5 && WellFormedReplies(c.replies, c.id) by {
      assert WellFormedReply(c, prefix);
    }
    if n == c {
      MaxDepthOfExtension(n.id, target);
      assert c.id <= target;
    } else {
      DescendantIdShape(c.replies, c.id, n);
      assert c.id <= n.id;
      WholeBlocks(|n.id|, depth + 1);
      MaxDepthOfExtension(n.id, target);
      assert c.id <= target by {
        assert n.id[..|c.id|] == c.id;
        assert target[..|n.id|] == n.id;
        assert target[..|c.id|] == target[..|n.id|][..|c.id|];
      }
    }
    PrefixSliceMatches(c.id, target, depth);
  }

  /**
   * Completeness: in a well-formed forest, every submission is found by its
   * own id, and by its id followed by up to four further characters.
   */
  lemma {:induction false} FindComplete(cs: seq<Submission>, prefix: string, depth: nat, n: Submission, target: string)
    requires WellFormedReplies(cs, prefix) && |prefix| == 5 * depth
    requires n in Flatten(cs)
    requires n.id <= target && |target| < |n.id| + 5
    ensures Scan(cs, target, depth, None) == Some(n)
    decreases cs
  {
    var i := RootHolding(cs, n);
    var c := cs[i];
    RootMatches(cs, prefix, depth, n, target, i);
    assert Scan(cs, target, depth, None) ==
           if depth == MaxDepth(target) then Some(c) else Scan(c.replies, target, depth + 1, None) by {
      OnlyRootMatches(cs, prefix, depth, target, i);
      ScanUniqueMatch(cs, target, depth, None, i);
    }
    if n != c {
      assert WellFormedReplies(c.replies, c.id) && |c.id| == 5 * (depth + 1) by {
        assert WellFormedReply(c, prefix);
      }
      FindComplete(c.replies, c.id, depth + 1, n, target);
    }
  }

  /** When sibling `i` matches the target's block, no other sibling does. */
  lemma OnlyRootMatches(cs: seq<Submission>, prefix: string, depth: nat, target: string, i: nat)
    requires WellFormedReplies(cs, prefix) && |prefix| == 5 * depth
    requires i < |cs| && SliceAt(cs[i].id, depth) == SliceAt(target, depth)
    ensures forall j :: 0 <= j < |cs| && j != i ==> SliceAt(cs[j].id, depth) != SliceAt(target, depth)
  {
    forall j | 0 <= j < |cs| && j != i
      ensures SliceAt(cs[j].id, depth) != SliceAt(target, depth)
    {
      SiblingBlocksDiffer(cs, prefix, depth, i, j);
    }
  }

  /** The first sibling and the rest of a well-formed forest, each well formed, each inside it. */
  lemma SplitForest(cs: seq<Submission>, prefix: string)
    requires |cs| > 0 && WellFormedReplies(cs, prefix)
    ensures WellFormedReply(cs[0], prefix) && WellFormedReplies(cs[1..], prefix)
    ensures cs[0] in Flatten(cs)
    ensures forall n :: n in Flatten(cs[0].replies) ==> n in Flatten(cs)
    ensures forall n :: n in Flatten(cs[1..]) ==> n in Flatten(cs)
  {
    assert Flatten(cs) == [cs[0]] + Flatten(cs[0].replies) + Flatten(cs[1..]);
    forall j | 0 <= j < |cs[1..]|
      ensures WellFormedReply(cs[1..][j], prefix)
    {
      assert cs[1..][j] == cs[j + 1];
    }
  }

  /** A child id whose block matches the target's, under a prefix of the target, is itself a prefix of it. */
  lemma MatchingBlockExtends(id: string, prefix: string, target: string, depth: nat)
    requires |prefix| == 5 * depth && |id| == 5 * depth + 5 && id[..|prefix|] == prefix
    requires prefix <= target
    requires SliceAt(id, depth) == SliceAt(target, depth)
    ensures id <= target
  {
    assert SliceAt(id, depth) == Some(id[5 * depth..5 * depth + 5]);
    assert |target| >= 5 * depth + 5;
    assert target[5 * depth..5 * depth + 5] == id[5 * depth..];
    assert id == id[..5 * depth] + id[5 * depth..];
    assert target[..5 * depth + 5] == target[..5 * depth] + target[5 * depth..5 * depth + 5];
  }

  /**
   * Soundness of one scan: whatever it reports, unless it is the value it
   * started with, is a submission of the forest whose id is the truncated target.
   */
  lemma {:induction false} ScanSound(cs: seq<Submission>, prefix: string, depth: nat, target: string, found: Option<Submission>)
    requires WellFormedReplies(cs, prefix) && |prefix| == 5 * depth
    requires prefix <= target
    ensures var r := Scan(cs, target, depth, found);
            r.Some? ==> r == found || (r.value in Flatten(cs) && r.value.id == Truncated(target))
    decreases cs
  {
    if |cs| > 0 {
      var c := cs[0];
      SplitForest(cs, prefix);
      if SliceAt(c.id, depth) == SliceAt(target, depth) {
        assert c.id <= target && |c.id| == 5 * depth + 5 && WellFormedReplies(c.replies, c.id) by {
          assert WellFormedReply(c, prefix);
          MatchingBlockExtends(c.id, prefix, target, depth);
        }
        if depth == MaxDepth(target) {
          assert Truncated(target) == target[..5 * depth + 5];
        } else {
          ScanSound(c.replies, c.id, depth + 1, target, None);
          var inner := Scan(c.replies, target, depth + 1, None);
          ScanSound(cs[1..], prefix, depth, target, inner);
        }
      } else {
        ScanSound(cs[1..], prefix, depth, target, found);
      }
    }
  }

  /**
   * `find` on the replies of a post whose tree is well formed: it returns
   * exactly the submission whose id is the target cut down to whole blocks,
   * and nil when there is none.
   */
  lemma FindCharacterised(cs: seq<Submission>, target: string)
    requires WellFormedReplies(cs, "")
    ensures Find(cs, target, 0).Some? ==>
              Find(cs, target, 0).value in Flatten(cs) && Find(cs, target, 0).value.id == Truncated(target)
    ensures forall n :: n in Flatten(cs) && n.id == Truncated(target) ==> Find(cs, target, 0) == Some(n)
  {
    ScanSound(cs, "", 0, target, None);
    forall n | n in Flatten(cs) && n.id == Truncated(target)
      ensures Find(cs, target, 0) == Some(n)
    {
      FindComplete(cs, "", 0, n, target);
    }
  }

  /** Whatever a well-formed tree yields was asked for by a target that starts with a block. */
  lemma FoundTargetStartsWithBlock(cs: seq<Submission>, target: string)
    requires WellFormedReplies(cs, "")
    requires Find(cs, target, 0).Some?
    ensures |target| >= 5 && IsBlock(target[..5])
  {
    FindCharacterised(cs, target);
    var r := Find(cs, target, 0).value;
    DescendantIdShape(cs, "", r);
    assert r.id[..5] == target[..5];
  }

  /** A target whose first five characters are not a block names no comment of a well-formed tree. */
  lemma NonBlockTargetNotFound(cs: seq<Submission>, target: string)
    requires WellFormedReplies(cs, "")
    requires |target| >= 5 && !IsBlock(target[..5])
    ensures Find(cs, target, 0) == None
  {
    if Find(cs, target, 0).Some? {
      FoundTargetStartsWithBlock(cs, target);
    }
  }

  /** The id `523532` used against a post in the test suite names no comment: `52353` has no letters. */
  lemma DigitsOnlyTargetNotFound(cs: seq<Submission>)
    requires WellFormedReplies(cs, "")
    ensures Find(cs, "523532", 0) == None
  {
    var t := "523532";
    assert t[..5] == "52353";
    assert LetterCount("52353") == 0;
    NonBlockTargetNotFound(cs, t);
  }

  /** A reply-less comment, for the examples below. */
  function Leaf(id: string, text: string): Submission
  {
    Submission(id, CommentKind, Live("u", Ballots.Empty, CommentContent(text)), [])
  }

  /** Trailing characters past the last whole block are ignored. */
  lemma TrailingCharactersIgnored()
    ensures Find([Leaf("ab123", "x")], "ab12345", 0) == Some(Leaf("ab123", "x"))
  {
    assert MaxDepth("ab12345") == 0;
    assert "ab12345"[0..5] == "ab123" && "ab123"[0..5] == "ab123";
  }

  /** With two siblings that share a block, the last depth returns the first of them. */
  lemma FirstMatchAtLastDepth()
    ensures Find([Leaf("ab123", "first"), Leaf("ab123", "second")], "ab123", 0) == Some(Leaf("ab123", "first"))
  {
    assert MaxDepth("ab123") == 0;
    assert "ab123"[0..5] == "ab123";
  }

  /**
   * Above the last depth a later sibling with the same block overwrites
   * what an earlier one found: here the reply under the first is lost.
   */
  lemma LaterMatchOverwrites()
    ensures var child := Leaf("ab123cd456", "reply");
            var first := Submission("ab123", CommentKind, Live("u", Ballots.Empty, CommentContent("a")), [child]);
            Find([first, Leaf("ab123", "b")], "ab123cd456", 0) == None
  {
    var t := "ab123cd456";
    var child := Leaf(t, "reply");
    var first := Submission("ab123", CommentKind, Live("u", Ballots.Empty, CommentContent("a")), [child]);
    var second := Leaf("ab123", "b");
    assert MaxDepth(t) == 1;
    assert t[0..5] == "ab123" && "ab123"[0..5] == "ab123";
    assert SliceAt(t, 0) == SliceAt("ab123", 0);
    assert Scan([child], t, 1, None) == Some(child);
    assert [first, second][1..] == [second];
    assert Scan([second], t, 0, Some(child)) == Scan([], t, 0, None);
  }
}

=== FILE: options.dfy ===
/** Failure-carrying results shared by the whole model. */
module Options {

  /** A value that may be missing: Ruby's `nil` or a found object. */
  datatype Option<+T> = None | Some(value: T)

  /** The outcome of an operation that may raise instead of returning. */
  datatype Result<+T, +E> = Ok(value: T) | Err(error: E)
}

=== FILE: ordering.dfy ===
/**
 * Presentation order: `sort_posts` / `sort_comments` (score, highest first)
 * and `list_comments`, the indented pre-order walk that sorts every level
 * of the reply tree on its own.
 */
module Ordering {
  import opened Submissions

  predicate Ascending(s: seq<Submission>)
  {
    forall i, j :: 0 <= i < j < |s| ==> Score(s[i]) <= Score(s[j])
  }

  predicate NonIncreasing(s: seq<Submission>)
  {
    forall i, j :: 0 <= i < j < |s| ==> Score(s[i]) >= Score(s[j])
  }

  /** Puts `x` into an ascending list, before the first element that scores at least as much. */
  function Insert(x: Submission, ys: seq<Submission>): (r: seq<Submission>)
    ensures multiset(r) == multiset(ys) + multiset{x}
    ensures |r| == |ys| + 1
    ensures forall k :: 0 <= k < |r| ==> r[k] == x || r[k] in ys
    ensures Ascending(ys) ==> Ascending(r)
  {
    if |ys| == 0 || Score(x) <= Score(ys[0]) then [x] + ys
    else
      var rest := Insert(x, ys[1..]);
      ConsMultiset(x, ys, rest);
      InsertKeepsMembers(x, ys, rest);
      InsertStep(x, ys, rest);
      [ys[0]] + rest
  }

  lemma ConsMultiset(x: Submission, ys: seq<Submission>, rest: seq<Submission>)
    requires |ys| > 0 && multiset(rest) == multiset(ys[1..]) + multiset{x}
    ensures multiset([ys[0]] + rest) == multiset(ys) + multiset{x}
  {
    assert ys == [ys[0]] + ys[1..];
  }

  lemma InsertKeepsMembers(x: Submission, ys: seq<Submission>, rest: seq<Submission>)
    requires |ys| > 0
    requires forall k :: 0 <= k < |rest| ==> rest[k] == x || rest[k] in ys[1..]
    ensures forall k :: 0 <= k < |[ys[0]] + rest| ==> ([ys[0]] + rest)[k] == x || ([ys[0]] + rest)[k] in ys
  {
    forall k | 0 <= k < |[ys[0]] + rest|
      ensures ([ys[0]] + rest)[k] == x || ([ys[0]] + rest)[k] in ys
    {
      if k > 0 {
        assert ([ys[0]] + rest)[k] == rest[k - 1];
        if rest[k - 1] != x {
          var m :| 0 <= m < |ys[1..]| && ys[1..][m] == rest[k - 1];
          assert ys[m + 1] == rest[k - 1];
        }
      }
    }
  }

  /** The head of an ascending list stays in front of what is inserted after it. */
  lemma InsertStep(x: Submission, ys: seq<Submission>, rest: seq<Submission>)
    requires |ys| > 0 && Score(x) > Score(ys[0])
    requires forall k :: 0 <= k < |rest| ==> rest[k] == x || rest[k] in ys[1..]
    requires Ascending(ys[1..]) ==> Ascending(rest)
    ensures Ascending(ys) ==> Ascending([ys[0]] + rest)
  {
    if Ascending(ys) {
      assert Ascending(ys[1..]);
      forall k | 0 <= k < |rest|
        ensures Score(ys[0]) <= Score(rest[k])
      {
        if rest[k] != x {
          var m :| 0 <= m < |ys[1..]| && ys[1..][m] == rest[k];
          assert ys[m + 1] == rest[k];
        }
      }
    }
  }

  /** `sort_by(&:score)`, taken to keep equal scores in their original order. */
  function SortAscending(cs: seq<Submission>): (r: seq<Submission>)
    ensures multiset(r) == multiset(cs)
    ensures Ascending(r)
  {
    if |cs| == 0 then []
    else
      assert cs == [cs[0]] + cs[1..];
      Insert(cs[0], SortAscending(cs[1..]))
  }

  /** `Array#reverse`. */
  function Reverse(s: seq<Submission>): (r: seq<Submission>)
    ensures |r| == |s| && forall i :: 0 <= i < |s| ==> r[i] == s[|s| - 1 - i]
    ensures multiset(r) == multiset(s)
  {
    if |s| == 0 then []
    else
      assert s == s[..|s| - 1] + [s[|s| - 1]];
      [s[|s| - 1]] + Reverse(s[..|s| - 1])
  }

  /**
   * `sort_posts` and `sort_comments`: `sort_by(&:score).reverse`, a
   * reordering of the list from the highest score to the lowest.
   */
  function SortByScore(cs: seq<Submission>): (r: seq<Submission>)
    ensures multiset(r) == multiset(cs)
    ensures |r| == |cs|
    ensures NonIncreasing(r)
  {
    var a := SortAscending(cs);
    var r := Reverse(a);
    assert |r| == |multiset(r)| == |multiset(cs)| == |cs|;
    r
  }

  /**
   * Deleted submissions sink below every live one, provided no live score
   * is as low as the deletion score.
   */
  lemma DeletedSortLast(cs: seq<Submission>)
    requires forall c :: c in cs && !IsDeleted(c) ==> Score(c) > DeletedScore
    ensures var r := SortByScore(cs);
            forall i, j :: 0 <= i < j < |r| && IsDeleted(r[i]) ==> IsDeleted(r[j])
  {
    var r := SortByScore(cs);
    forall i, j | 0 <= i < j < |r| && IsDeleted(r[i])
      ensures IsDeleted(r[j])
    {
      assert r[j] in multiset(cs);
    }
  }

  /** When every score is the same, the code's order is the reverse of insertion order. */
  lemma {:induction false} EqualScoresAscendingUnchanged(cs: seq<Submission>)
    requires forall i, j :: 0 <= i < j < |cs| ==> Score(cs[i]) == Score(cs[j])
    ensures SortAscending(cs) == cs
  {
    if |cs| > 0 {
      EqualScoresAscendingUnchanged(cs[1..]);
      assert cs == [cs[0]] + cs[1..];
    }
  }

  lemma EqualScoresReversed(cs: seq<Submission>)
    requires forall i, j :: 0 <= i < j < |cs| ==> Score(cs[i]) == Score(cs[j])
    ensures SortByScore(cs) == Reverse(cs)
  {
    EqualScoresAscendingUnchanged(cs);
  }

  /** One line of the comments page: a comment and its left indent in pixels. */
  datatype Line = Line(comment: Submission, indent: int)

  /**
   * The tree in pre-order with each submission indented 20 more than its
   * parent, siblings left in insertion order.
   */
  function Indented(cs: seq<Submission>, indent: int): (r: seq<Line>)
    ensures |r| == |Flatten(cs)|
    ensures forall k :: 0 <= k < |r| ==> r[k].comment == Flatten(cs)[k] && r[k].indent >= indent
  {
    if |cs| == 0 then []
    else [Line(cs[0], indent)] + Indented(cs[0].replies, indent + 20) + Indented(cs[1..], indent)
  }

  lemma {:induction false} IndentedAppend(a: seq<Submission>, b: seq<Submission>, indent: int)
    ensures Indented(a + b, indent) == Indented(a, indent) + Indented(b, indent)
  {
    if |a| > 0 {
      assert (a + b)[0] == a[0] && (a + b)[1..] == a[1..] + b;
      IndentedAppend(a[1..], b, indent);
    } else {
      assert a + b == b;
    }
  }

  /** Removing the element at `j` removes one occurrence of it. */
  lemma RemoveAt(ys: seq<Submission>, j: nat)
    requires j < |ys|
    ensures multiset(ys[..j] + ys[j + 1..]) == multiset(ys) - multiset{ys[j]}
  {
    assert ys == ys[..j] + [ys[j]] + ys[j + 1..];
  }

  /** The listing of `ys` is the block of `ys[j]` and the listing of the others, up to order. */
  lemma IndentedRemoveAt(ys: seq<Submission>, j: nat, indent: int)
    requires j < |ys|
    ensures multiset(Indented(ys, indent)) ==
            multiset(Indented([ys[j]], indent)) + multiset(Indented(ys[..j] + ys[j + 1..], indent))
  {
    assert ys == (ys[..j] + [ys[j]]) + ys[j + 1..];
    IndentedAppend(ys[..j] + [ys[j]], ys[j + 1..], indent);
    IndentedAppend(ys[..j], [ys[j]], indent);
    IndentedAppend(ys[..j], ys[j + 1..], indent);
  }

  /** Reordering siblings reorders their indented subtrees as whole blocks, losing nothing. */
  lemma {:induction false} IndentedPermutation(xs: seq<Submission>, ys: seq<Submission>, indent: int)
    requires multiset(xs) == multiset(ys)
    ensures multiset(Indented(xs, indent)) == multiset(Indented(ys, indent))
    decreases |xs|
  {
    if |xs| > 0 {
      var x := xs[0];
      var j := IndexOf(ys, x);
      var rest := ys[..j] + ys[j + 1..];
      assert xs[..0] + xs[1..] == xs[1..];
      assert multiset(xs[1..]) == multiset(rest) by {
        RemoveAt(ys, j);
        RemoveAt(xs, 0);
      }
      assert multiset(Indented(xs[1..], indent)) == multiset(Indented(rest, indent)) by {
        IndentedPermutation(xs[1..], rest, indent);
      }
      assert multiset(Indented(xs, indent)) ==
             multiset(Indented([x], indent)) + multiset(Indented(xs[1..], indent)) by {
        IndentedRemoveAt(xs, 0, indent);
      }
      assert multiset(Indented(ys, indent)) ==
             multiset(Indented([x], indent)) + multiset(Indented(rest, indent)) by {
        IndentedRemoveAt(ys, j, indent);
      }
    }
  }

  /** A position of `x` in `ys`. */
  function IndexOf(ys: seq<Submission>, x: Submission): (j: nat)
    requires x in multiset(ys)
    ensures j < |ys| && ys[j] == x
  {
    if ys[0] == x then 0
    else
      assert ys == [ys[0]] + ys[1..];
      1 + IndexOf(ys[1..], x)
  }

  /** Reordering siblings does not change how many submissions the forest holds. */
  lemma FlattenSizePermutation(xs: seq<Submission>, ys: seq<Submission>)
    requires multiset(xs) == multiset(ys)
    ensures |Flatten(xs)| == |Flatten(ys)|
  {
    IndentedPermutation(xs, ys, 0);
    assert |Indented(xs, 0)| == |multiset(Indented(xs, 0))|;
    assert |Indented(ys, 0)| == |multiset(Indented(ys, 0))|;
  }

  /** `list_comments(comments, indent)`: what it yields, in order. */
  function ListComments(cs: seq<Submission>, indent: int): (r: seq<Line>)
    ensures forall k :: 0 <= k < |r| ==> r[k].indent >= indent
    decreases |Flatten(cs)|, 1
  {
    var sorted := SortByScore(cs);
    FlattenSizePermutation(sorted, cs);
    ListSorted(sorted, indent)
  }

  /** The `each` loop of `list_comments` over the sorted siblings `xs`. */
  function ListSorted(xs: seq<Submission>, indent: int): (r: seq<Line>)
    ensures forall k :: 0 <= k < |r| ==> r[k].indent >= indent
    decreases |Flatten(xs)|, 0
  {
    if |xs| == 0 then []
    else [Line(xs[0], indent)] + ListComments(xs[0].replies, indent + 20) + ListSorted(xs[1..], indent)
  }

  /**
   * `list_comments` shows every submission of the tree exactly once, at
   * 20 more than its parent's indent: the lines are a reordering of the
   * unsorted indented pre-order.
   */
  lemma {:induction false} ListCommentsShowsTree(cs: seq<Submission>, indent: int)
    ensures multiset(ListComments(cs, indent)) == multiset(Indented(cs, indent))
    ensures |ListComments(cs, indent)| == |Flatten(cs)|
    decreases |Flatten(cs)|, 1
  {
    var sorted := SortByScore(cs);
    FlattenSizePermutation(sorted, cs);
    ListSortedShowsTree(sorted, indent);
    IndentedPermutation(sorted, cs, indent);
    assert |ListComments(cs, indent)| == |multiset(ListComments(cs, indent))|;
  }

  lemma {:induction false} ListSortedShowsTree(xs: seq<Submission>, indent: int)
    ensures multiset(ListSorted(xs, indent)) == multiset(Indented(xs, indent))
    decreases |Flatten(xs)|, 0
  {
    if |xs| > 0 {
      ListCommentsShowsTree(xs[0].replies, indent + 20);
      ListSortedShowsTree(xs[1..], indent);
    }
  }

  /** The comments of the lines at exactly `indent`, in order. */
  function AtIndent(lines: seq<Line>, indent: int): seq<Submission>
  {
    if |lines| == 0 then []
    else (if lines[0].indent == indent then [lines[0].comment] else []) + AtIndent(lines[1..], indent)
  }

  lemma {:induction false} AtIndentAppend(a: seq<Line>, b: seq<Line>, indent: int)
    ensures AtIndent(a + b, indent) == AtIndent(a, indent) + AtIndent(b, indent)
  {
    if |a| > 0 {
      assert (a + b)[0] == a[0] && (a + b)[1..] == a[1..] + b;
      AtIndentAppend(a[1..], b, indent);
    } else {
      assert a + b == b;
    }
  }

  lemma {:induction false} AtIndentNone(lines: seq<Line>, indent: int)
    requires forall k :: 0 <= k < |lines| ==> lines[k].indent > indent
    ensures AtIndent(lines, indent) == []
  {
    if |lines| > 0 {
      AtIndentNone(lines[1..], indent);
    }
  }

  /** The top level of the listing is the siblings in score order; every reply is indented further. */
  lemma TopLevelInScoreOrder(cs: seq<Submission>, indent: int)
    ensures AtIndent(ListComments(cs, indent), indent) == SortByScore(cs)
  {
    ListSortedTopLevel(SortByScore(cs), indent);
  }

  lemma {:induction false} ListSortedTopLevel(xs: seq<Submission>, indent: int)
    ensures AtIndent(ListSorted(xs, indent), indent) == xs
    decreases |xs|
  {
    if |xs| > 0 {
      var head := [Line(xs[0], indent)];
      var sub := ListComments(xs[0].replies, indent + 20);
      var tail := ListSorted(xs[1..], indent);
      AtIndentAppend(head + sub, tail, indent);
      AtIndentAppend(head, sub, indent);
      AtIndentNone(sub, indent);
      ListSortedTopLevel(xs[1..], indent);
      assert head[1..] == [];
      assert xs == [xs[0]] + xs[1..];
    }
  }

  /** The first position at or after `from` whose line is indented at most `bound`, or the end. */
  function NextAtOrBelow(lines: seq<Line>, from: nat, bound: int): (e: nat)
    requires from <= |lines|
    ensures from <= e <= |lines|
    ensures forall j :: from <= j < e ==> lines[j].indent > bound
    ensures e < |lines| ==> lines[e].indent <= bound
    decreases |lines| - from
  {
    if from == |lines| || lines[from].indent <= bound then from
    else NextAtOrBelow(lines, from + 1, bound)
  }

  /** Where the block headed by line `k` ends: at the next line indented no further than it. */
  function BlockEnd(lines: seq<Line>, k: nat): (e: nat)
    requires k < |lines|
    ensures k < e <= |lines|
  {
    NextAtOrBelow(lines, k + 1, lines[k].indent)
  }

  /** The lines after line `k`, up to the end of its block, are `want`. */
  predicate BlockIs(lines: seq<Line>, k: nat, want: seq<Line>)
    requires k < |lines|
  {
    lines[k + 1..BlockEnd(lines, k)] == want
  }

  /** What `list_comments` prints below line `l`: its replies, sorted, 20 further in. */
  function RepliesListing(l: Line): seq<Line>
  {
    ListComments(l.comment.replies, l.indent + 20)
  }

  /** Every line is followed, up to the end of its block, by `f` of that line. */
  predicate BlocksFollow(lines: seq<Line>, f: Line -> seq<Line>)
  {
    forall k {:trigger BlockIs(lines, k, f(lines[k]))} :: 0 <= k < |lines| ==> BlockIs(lines, k, f(lines[k]))
  }

  /** Every line of the listing is followed by the listing of its own replies and then by nothing deeper. */
  predicate PreOrder(lines: seq<Line>)
  {
    BlocksFollow(lines, RepliesListing)
  }

  /**
   * `list_comments` is a pre-order walk: every comment is followed directly
   * by its own replies, sorted and indented 20 more, and by nothing else
   * until a line at its indent or less.
   */
  lemma {:induction false} ListCommentsPreOrder(cs: seq<Submission>, indent: int)
    ensures PreOrder(ListComments(cs, indent))
    decreases |Flatten(cs)|, 1
  {
    var sorted := SortByScore(cs);
    FlattenSizePermutation(sorted, cs);
    ListSortedPreOrder(sorted, indent);
    assert ListComments(cs, indent) == ListSorted(sorted, indent);
  }

  lemma {:induction false} ListSortedPreOrder(xs: seq<Submission>, indent: int)
    ensures PreOrder(ListSorted(xs, indent))
    decreases |Flatten(xs)|, 0
  {
    if |xs| > 0 {
      var h := Line(xs[0], indent);
      var sub := ListComments(xs[0].replies, indent + 20);
      var tail := ListSorted(xs[1..], indent);
      ListCommentsPreOrder(xs[0].replies, indent + 20);
      ListSortedPreOrder(xs[1..], indent);
      assert |tail| == 0 || tail[0].indent <= h.indent by {
        ListSortedHead(xs[1..], indent);
      }
      assert sub == RepliesListing(h);
      BlocksJoin(h, sub, tail, RepliesListing);
      assert ListSorted(xs, indent) == [h] + sub + tail;
    }
  }

  /** A line, the blocks below it and a run of later blocks join into one run of blocks. */
  lemma BlocksJoin(h: Line, sub: seq<Line>, tail: seq<Line>, f: Line -> seq<Line>)
    requires BlocksFollow(sub, f) && BlocksFollow(tail, f)
    requires sub == f(h)
    requires forall j :: 0 <= j < |sub| ==> sub[j].indent > h.indent
    requires |tail| == 0 || tail[0].indent <= h.indent
    ensures BlocksFollow([h] + sub + tail, f)
  {
    var r := [h] + sub + tail;
    forall k | 0 <= k < |r|
      ensures BlockIs(r, k, f(r[k]))
    {
      if k == 0 {
        HeadFollows(h, sub, tail);
      } else if k <= |sub| {
        InnerFollows(h, sub, tail, k - 1, f(sub[k - 1]));
      } else {
        OuterFollows([h] + sub, tail, k - 1 - |sub|, f(tail[k - 1 - |sub|]));
      }
    }
  }

  lemma HeadFollows(h: Line, sub: seq<Line>, tail: seq<Line>)
    requires forall j :: 0 <= j < |sub| ==> sub[j].indent > h.indent
    requires |tail| == 0 || tail[0].indent <= h.indent
    ensures ([h] + sub + tail)[0] == h && BlockIs([h] + sub + tail, 0, sub)
  {
    var r := [h] + sub + tail;
    assert BlockEnd(r, 0) == 1 + |sub| by {
      HeadBlock(h, sub, tail);
    }
    assert r[1..1 + |sub|] == sub;
  }

  lemma InnerFollows(h: Line, sub: seq<Line>, tail: seq<Line>, j: nat, want: seq<Line>)
    requires j < |sub| && BlockIs(sub, j, want)
    requires forall i :: 0 <= i < |sub| ==> sub[i].indent > h.indent
    requires |tail| == 0 || tail[0].indent <= h.indent
    ensures ([h] + sub + tail)[1 + j] == sub[j] && BlockIs([h] + sub + tail, 1 + j, want)
  {
    var r := [h] + sub + tail;
    var e := BlockEnd(sub, j);
    assert BlockEnd(r, 1 + j) == 1 + e by {
      assert sub[j].indent > h.indent;
      InnerBlock(h, sub, tail, j);
    }
    assert r[j + 2..1 + e] == sub[j + 1..e];
  }

  lemma OuterFollows(p: seq<Line>, tail: seq<Line>, j: nat, want: seq<Line>)
    requires j < |tail| && BlockIs(tail, j, want)
    ensures (p + tail)[|p| + j] == tail[j] && BlockIs(p + tail, |p| + j, want)
  {
    var r := p + tail;
    var e := BlockEnd(tail, j);
    assert BlockEnd(r, |p| + j) == |p| + e by {
      OuterBlock(p, tail, j);
    }
    assert r[|p| + j + 1..|p| + e] == tail[j + 1..e];
  }

  lemma ListSortedHead(xs: seq<Submission>, indent: int)
    ensures var r := ListSorted(xs, indent); |r| == 0 || r[0].indent == indent
  {
  }

  /** Lines that all lie to the right of `bound` are skipped over. */
  lemma {:induction false} NextSkips(lines: seq<Line>, from: nat, to: nat, bound: int)
    requires from <= to <= |lines|
    requires forall j :: from <= j < to ==> lines[j].indent > bound
    ensures NextAtOrBelow(lines, from, bound) == NextAtOrBelow(lines, to, bound)
    decreases (to as int) - from
  {
    if from < to {
      NextSkips(lines, from + 1, to, bound);
    }
  }

  /** Searching inside `q` after a prefix `p` is searching `q` alone, shifted by `|p|`. */
  lemma {:induction false} NextInSuffix(p: seq<Line>, q: seq<Line>, j: nat, bound: int)
    requires j <= |q|
    ensures NextAtOrBelow(p + q, |p| + j, bound) == |p| + NextAtOrBelow(q, j, bound)
    decreases |q| - j
  {
    if j < |q| {
      assert (p + q)[|p| + j] == q[j];
      NextInSuffix(p, q, j + 1, bound);
    }
  }

  /** A search in `p` never runs on into `q` when `q` starts at or left of the bound. */
  lemma {:induction false} NextInPrefix(p: seq<Line>, q: seq<Line>, from: nat, bound: int)
    requires from <= |p|
    requires |q| == 0 || q[0].indent <= bound
    ensures NextAtOrBelow(p + q, from, bound) == NextAtOrBelow(p, from, bound)
    decreases |p| - from
  {
    if from < |p| {
      assert (p + q)[from] == p[from];
      NextInPrefix(p, q, from + 1, bound);
    } else if |q| > 0 {
      assert (p + q)[from] == q[0];
    }
  }

  /** The head line's block is exactly its indented replies. */
  lemma HeadBlock(h: Line, sub: seq<Line>, tail: seq<Line>)
    requires forall j :: 0 <= j < |sub| ==> sub[j].indent > h.indent
    requires |tail| == 0 || tail[0].indent <= h.indent
    ensures BlockEnd([h] + sub + tail, 0) == 1 + |sub|
  {
    var r := [h] + sub + tail;
    assert forall j :: 1 <= j < 1 + |sub| ==> r[j] == sub[j - 1];
    NextSkips(r, 1, 1 + |sub|, h.indent);
    NextInSuffix([h] + sub, tail, 0, h.indent);
  }

  /** A block inside the replies ends where it ends in the replies' own listing. */
  lemma InnerBlock(h: Line, sub: seq<Line>, tail: seq<Line>, j: nat)
    requires j < |sub|
    requires |tail| == 0 || tail[0].indent <= sub[j].indent
    ensures var r := [h] + sub + tail; BlockEnd(r, 1 + j) == 1 + BlockEnd(sub, j)
  {
    assert [h] + sub + tail == [h] + (sub + tail);
    assert (sub + tail)[j] == sub[j];
    NextInSuffix([h], sub + tail, j + 1, sub[j].indent);
    NextInPrefix(sub, tail, j + 1, sub[j].indent);
  }

  /** A block in the later siblings' listing is unaffected by what precedes it. */
  lemma OuterBlock(p: seq<Line>, tail: seq<Line>, j: nat)
    requires j < |tail|
    ensures BlockEnd(p + tail, |p| + j) == |p| + BlockEnd(tail, j)
  {
    assert (p + tail)[|p| + j] == tail[j];
    NextInSuffix(p, tail, j + 1, tail[j].indent);
  }

  lemma InsertAtFront(x: Submission, ys: seq<Submission>)
    requires |ys| == 0 || Score(x) <= Score(ys[0])
    ensures Insert(x, ys) == [x] + ys
  {
  }

  lemma InsertAfterOne(x: Submission, y: Submission)
    requires Score(x) > Score(y)
    ensures Insert(x, [y]) == [y, x]
  {
    assert [y][1..] == [];
    InsertAtFront(x, []);
  }

  lemma SortAscendingOne(b: Submission)
    ensures SortAscending([b]) == [b]
  {
    assert [b][1..] == [];
    InsertAtFront(b, []);
  }

  lemma SortAscendingTwo(d: Submission, b: Submission)
    requires Score(d) <= Score(b)
    ensures SortAscending([d, b]) == [d, b]
  {
    SortAscendingOne(b);
    assert [d, b][1..] == [b];
    InsertAtFront(d, [b]);
  }

  lemma InsertPastTwo(a: Submission, d: Submission, b: Submission)
    requires Score(a) > Score(d) && Score(a) > Score(b)
    ensures Insert(a, [d, b]) == [d, b, a]
  {
    assert [d, b][1..] == [b];
    InsertAfterOne(a, b);
  }

  lemma SortAscendingThree(a: Submission, d: Submission, b: Submission)
    requires SortAscending([d, b]) == [d, b]
    requires Insert(a, [d, b]) == [d, b, a]
    ensures SortAscending([a, d, b]) == [d, b, a]
  {
    assert [a, d, b][1..] == [d, b];
  }

  lemma ReverseThree(a: Submission, d: Submission, b: Submission)
    ensures Reverse([d, b, a]) == [a, b, d]
  {
  }

  /** Scores 3, deleted and 1 are shown as 3, 1, deleted. */
  lemma SortExample(a: Submission, d: Submission, b: Submission)
    requires Score(a) == 3 && IsDeleted(d) && Score(b) == 1
    ensures SortByScore([a, d, b]) == [a, b, d]
  {
    SortAscendingTwo(d, b);
    InsertPastTwo(a, d, b);
    SortAscendingThree(a, d, b);
    ReverseThree(a, d, b);
  }

  lemma ListCommentsEmpty(indent: int)
    ensures ListComments([], indent) == []
  {
  }

  lemma ListCommentsUnfold(cs: seq<Submission>, indent: int)
    ensures ListComments(cs, indent) == ListSorted(SortByScore(cs), indent)
  {
  }

  lemma ListCommentsLeaf(c: Submission, indent: int)
    requires c.replies == []
    ensures ListComments([c], indent) == [Line(c, indent)]
  {
    EqualScoresReversed([c]);
    assert [c][1..] == [];
    ListCommentsEmpty(indent + 20);
    assert ListSorted([c], indent) == [Line(c, indent)] + ListComments([], indent + 20) + ListSorted([], indent);
  }

  lemma SortTwoEqual(first: Submission, second: Submission)
    requires Score(first) == Score(second)
    ensures SortByScore([first, second]) == [second, first]
  {
    SortAscendingTwo(first, second);
    ReversePair(first, second);
  }

  lemma ReversePair(a: Submission, b: Submission)
    ensures Reverse([a, b]) == [b, a]
  {
    var r := Reverse([a, b]);
    assert r[0] == b && r[1] == a;
  }

  lemma ListSortedTwo(x: Submission, y: Submission, indent: int)
    ensures ListSorted([x, y], indent) ==
            [Line(x, indent)] + ListComments(x.replies, indent + 20) + [Line(y, indent)] + ListComments(y.replies, indent + 20)
  {
    assert [x, y][1..] == [y] && [y][1..] == [];
    assert ListSorted([y], indent) == [Line(y, indent)] + ListComments(y.replies, indent + 20) + ListSorted([], indent);
  }

  lemma ListCommentsTwoEqual(first: Submission, second: Submission)
    requires Score(first) == Score(second)
    ensures ListComments([first, second], 0) == ListSorted([second, first], 0)
  {
    SortTwoEqual(first, second);
    ListCommentsUnfold([first, second], 0);
  }

  lemma ListSortedExample(first: Submission, second: Submission, child: Submission)
    requires first.replies == [] && child.replies == [] && second.replies == [child]
    ensures ListSorted([second, first], 0) == [Line(second, 0), Line(child, 20), Line(first, 0)]
  {
    ListSortedTwo(second, first, 0);
    ListCommentsLeaf(child, 20);
    ListCommentsEmpty(20);
  }

  /**
   * Two replies FIRST and SECOND with equal scores, SECOND with a reply
   * "second": the page shows SECOND, then its reply indented, then FIRST.
   */
  lemma CommentOrderExample(first: Submission, second: Submission, child: Submission)
    requires first.replies == [] && child.replies == [] && second.replies == [child]
    requires Score(first) == Score(second)
    ensures ListComments([first, second], 0) == [Line(second, 0), Line(child, 20), Line(first, 0)]
  {
    ListCommentsTwoEqual(first, second);
    ListSortedExample(first, second, child);
  }
}

=== FILE: routes.dfy ===
/**
 * The comment routes: vote on, delete and reply to a comment that
 * `Comment.find` locates inside a post's reply tree. The Ruby code mutates
 * the object `find` returns, which changes the post's tree in place; here
 * the tree is rebuilt with that one comment replaced.
 */
module Routes {
  import opened Options
  import Ballots
  type UserName = Ballots.UserName
  import opened Ids
  import Text
  import opened Submissions
  import opened Lookup
  import Actions
  import Validation

  /** Why a comment route stops without changing the post. */
  datatype Failure =
    | NoSuchComment       // `find` returned nil: "Sorry, that comment doesn't exist"
    | VoteRaised          // a vote on a deleted comment raises
    | Refused(message: string)
    | NoFreshId           // every supplied id draw collides with a sibling

  const CommentMissing := "Sorry, that comment doesn't exist"

  /** The submission `c` after the update aimed at `id`: replaced when it is the one, searched otherwise. */
  function ReplaceIn(c: Submission, id: string, m: Submission): (r: Submission)
    ensures c.id == id ==> r == m
    ensures c.id != id ==> r.id == c.id && r.kind == c.kind && r.standing == c.standing
    decreases c, 1
  {
    if c.id == id then m else c.(replies := ReplaceAt(c.replies, id, m))
  }

  /** The forest `cs` with every submission whose id is `id` replaced by `m`. */
  function ReplaceAt(cs: seq<Submission>, id: string, m: Submission): (r: seq<Submission>)
    ensures |r| == |cs|
    ensures forall i :: 0 <= i < |cs| ==> r[i] == ReplaceIn(cs[i], id, m)
    decreases cs, 0
  {
    if |cs| == 0 then [] else [ReplaceIn(cs[0], id, m)] + ReplaceAt(cs[1..], id, m)
  }

  /** `m` may stand where the comment with id `id` stood without breaking the tree invariant. */
  predicate FitsAt(m: Submission, id: string)
  {
    && m.id == id
    && m.kind == CommentKind
    && SoundStanding(m)
    && WellFormedReplies(m.replies, m.id)
  }

  /** Every submission of a well-formed reply tree is a comment that fits where it stands. */
  lemma {:induction false} NodeFits(cs: seq<Submission>, prefix: string, n: Submission)
    requires WellFormedReplies(cs, prefix)
    requires n in Flatten(cs)
    ensures FitsAt(n, n.id)
    decreases cs
  {
    var i := RootHolding(cs, n);
    assert WellFormedReply(cs[i], prefix);
    if n != cs[i] {
      NodeFits(cs[i].replies, cs[i].id, n);
    }
  }

  /** Replacing a comment by one that fits its place keeps the tree invariant. */
  lemma {:induction false} ReplaceAtWellFormed(cs: seq<Submission>, prefix: string, id: string, m: Submission)
    requires WellFormedReplies(cs, prefix) && FitsAt(m, id)
    ensures WellFormedReplies(ReplaceAt(cs, id, m), prefix)
    decreases cs, 0
  {
    var r := ReplaceAt(cs, id, m);
    forall i | 0 <= i < |cs|
      ensures r[i].id == cs[i].id && WellFormedReply(r[i], prefix)
    {
      assert WellFormedReply(cs[i], prefix);
      ReplaceInWellFormed(cs[i], prefix, id, m);
    }
  }

  lemma {:induction false} ReplaceInWellFormed(c: Submission, prefix: string, id: string, m: Submission)
    requires WellFormedReply(c, prefix) && FitsAt(m, id)
    ensures ReplaceIn(c, id, m).id == c.id && WellFormedReply(ReplaceIn(c, id, m), prefix)
    decreases c, 1
  {
    if c.id != id {
      ReplaceAtWellFormed(c.replies, c.id, id, m);
    }
  }

  /** Whatever stood at `id` in the forest, `m` stands in the updated forest. */
  lemma {:induction false} ReplaceAtPlaces(cs: seq<Submission>, id: string, m: Submission, n: Submission)
    requires n in Flatten(cs) && n.id == id
    ensures m in Flatten(ReplaceAt(cs, id, m))
    decreases cs
  {
    var r := ReplaceAt(cs, id, m);
    assert Flatten(r) == [r[0]] + Flatten(r[0].replies) + Flatten(r[1..]);
    if cs[0].id == id {
      assert r[0] == m;
    } else if n in Flatten(cs[0].replies) {
      ReplaceAtPlaces(cs[0].replies, id, m, n);
      assert r[0].replies == ReplaceAt(cs[0].replies, id, m);
    } else {
      assert n in Flatten(cs[1..]);
      ReplaceAtPlaces(cs[1..], id, m, n);
      assert r[1..] == ReplaceAt(cs[1..], id, m);
    }
  }

  /** A post whose reply tree keeps the invariant. */
  predicate WellFormedPost(post: Submission)
  {
    post.kind == PostKind && WellFormed(post)
  }

  /** The post with the comment `find` located under `target` replaced by `m`. */
  function UpdateFound(post: Submission, target: string, m: Submission): (r: Submission)
    requires Find(post.replies, target, 0).Some?
    ensures r.id == post.id && r.kind == post.kind && r.standing == post.standing
    ensures |r.replies| == |post.replies|
  {
    post.(replies := ReplaceAt(post.replies, Find(post.replies, target, 0).value.id, m))
  }

  /**
   * Updating the found comment in place keeps the post well formed, and a
   * later `find` with the same id returns the updated comment.
   */
  lemma UpdateFoundLands(post: Submission, target: string, m: Submission)
    requires WellFormedPost(post)
    requires Find(post.replies, target, 0).Some?
    requires FitsAt(m, Find(post.replies, target, 0).value.id)
    ensures WellFormedPost(UpdateFound(post, target, m))
    ensures Find(UpdateFound(post, target, m).replies, target, 0) == Some(m)
  {
    var c := Find(post.replies, target, 0).value;
    FindCharacterised(post.replies, target);
    var cs := ReplaceAt(post.replies, c.id, m);
    ReplaceAtWellFormed(post.replies, "", c.id, m);
    ReplaceAtPlaces(post.replies, c.id, m, c);
    FindCharacterised(cs, target);
  }

  /** The found comment is a comment of the post that fits where it stands. */
  lemma FoundFits(post: Submission, target: string)
    requires WellFormedPost(post)
    requires Find(post.replies, target, 0).Some?
    ensures var c := Find(post.replies, target, 0).value; FitsAt(c, c.id) && WellFormed(c)
  {
    var c := Find(post.replies, target, 0).value;
    NodeFits(post.replies, "", c);
  }

  /** `post '/:post_id/:comment_id/vote'`, after the post is found. */
  function CommentVote(post: Submission, target: string, choice: string, user: UserName)
    : (r: Result<Submission, Failure>)
    ensures r == Err(NoSuchComment) <==> Find(post.replies, target, 0).None?
    ensures r == Err(VoteRaised) <==>
              && Find(post.replies, target, 0).Some?
              && Actions.IsVoteChoice(choice) && IsDeleted(Find(post.replies, target, 0).value)
    ensures r.Ok? <==>
              && Find(post.replies, target, 0).Some?
              && !(Actions.IsVoteChoice(choice) && IsDeleted(Find(post.replies, target, 0).value))
    ensures r.Ok? ==> r.value.id == post.id && r.value.standing == post.standing
  {
    match Find(post.replies, target, 0)
    case None => Err(NoSuchComment)
    case Some(c) =>
      match Actions.Vote(c, choice, user)
      case Err(_) => Err(VoteRaised)
      case Ok(v) => Ok(UpdateFound(post, target, v))
  }

  /** The vote lands on the comment `find` reports, and the post keeps its invariant. */
  lemma CommentVoteLands(post: Submission, target: string, choice: string, user: UserName)
    requires WellFormedPost(post)
    ensures var r := CommentVote(post, target, choice, user);
            r.Ok? ==>
              && WellFormedPost(r.value)
              && Find(r.value.replies, target, 0) ==
                 Some(Actions.Vote(Find(post.replies, target, 0).value, choice, user).value)
  {
    if CommentVote(post, target, choice, user).Ok? {
      var c := Find(post.replies, target, 0).value;
      FoundFits(post, target);
      Actions.VotePreservesWellFormed(c, choice, user);
      UpdateFoundLands(post, target, Actions.Vote(c, choice, user).value);
    }
  }

  /** `post '/:post_id/comments/:comment_id/delete'`, after the post is found. */
  function CommentDelete(post: Submission, target: string, user: Option<UserName>)
    : (r: Result<Submission, Failure>)
    ensures r == Err(NoSuchComment) <==> Find(post.replies, target, 0).None?
    ensures r == Err(Refused(Actions.CommentDeleteRefused)) <==>
              Find(post.replies, target, 0).Some? && Actions.DeleteAsUser(user, Find(post.replies, target, 0).value).Err?
    ensures r.Ok? ==> r.value.id == post.id && r.value.standing == post.standing
  {
    match Find(post.replies, target, 0)
    case None => Err(NoSuchComment)
    case Some(c) =>
      match Actions.DeleteAsUser(user, c)
      case Err(_) => Err(Refused(Actions.CommentDeleteRefused))
      case Ok(d) => Ok(UpdateFound(post, target, d))
  }

  /**
   * Deleting through the route succeeds exactly for the comment's author,
   * tombstones the comment `find` reports, and keeps the post's invariant.
   */
  lemma CommentDeleteLands(post: Submission, target: string, user: Option<UserName>)
    requires WellFormedPost(post)
    ensures var r := CommentDelete(post, target, user);
            var found := Find(post.replies, target, 0);
            && (r.Ok? <==> found.Some? && user.Some? && !IsDeleted(found.value)
                           && found.value.standing.author == user.value)
            && (r.Ok? ==>
                  && WellFormedPost(r.value)
                  && Find(r.value.replies, target, 0) == Some(SwitchToDeleted(found.value)))
  {
    if Find(post.replies, target, 0).Some? {
      var c := Find(post.replies, target, 0).value;
      if Actions.DeleteAsUser(user, c).Ok? {
        FoundFits(post, target);
        DeletePreservesWellFormed(c);
        UpdateFoundLands(post, target, SwitchToDeleted(c));
      }
    }
  }

  /** `post '/:post_id/comments/:comment_id/reply'`, after the post is found. */
  function CommentReply(post: Submission, target: string, text: Option<string>, user: UserName,
                        draws: seq<string>): (r: Result<Submission, Failure>)
    requires forall i :: 0 <= i < |draws| ==> IsBlock(draws[i])
    ensures r == Err(NoSuchComment) <==> Find(post.replies, target, 0).None?
    ensures r == Err(Refused(Validation.CommentBlank)) <==>
              Find(post.replies, target, 0).Some? && (text.None? || Text.AllSpace(text.value))
    ensures r == Err(NoFreshId) <==>
              && Find(post.replies, target, 0).Some? && text.Some? && !Text.AllSpace(text.value)
              && AddReply(Find(post.replies, target, 0).value, text.value, user, draws).None?
    ensures r.Ok? <==>
              && Find(post.replies, target, 0).Some? && text.Some? && !Text.AllSpace(text.value)
              && AddReply(Find(post.replies, target, 0).value, text.value, user, draws).Some?
    ensures r.Ok? ==> r.value.id == post.id && r.value.standing == post.standing
  {
    match Find(post.replies, target, 0)
    case None => Err(NoSuchComment)
    case Some(c) =>
      match Validation.CommentSubmissionError(text)
      case Some(message) => Err(Refused(message))
      case None =>
        match AddReply(c, text.value, user, draws)
        case None => Err(NoFreshId)
        case Some(p) => Ok(UpdateFound(post, target, p))
  }

  /**
   * A reply through the route hangs one new comment under the comment
   * `find` reports, and the post keeps its invariant.
   */
  lemma CommentReplyLands(post: Submission, target: string, text: Option<string>, user: UserName,
                          draws: seq<string>)
    requires forall i :: 0 <= i < |draws| ==> IsBlock(draws[i])
    requires WellFormedPost(post)
    ensures var r := CommentReply(post, target, text, user, draws);
            r.Ok? ==>
              && WellFormedPost(r.value)
              && Find(r.value.replies, target, 0) ==
                 AddReply(Find(post.replies, target, 0).value, text.value, user, draws)
  {
    if CommentReply(post, target, text, user, draws).Ok? {
      var c := Find(post.replies, target, 0).value;
      var p := AddReply(c, text.value, user, draws).value;
      FoundFits(post, target);
      AddReplyPreservesWellFormed(c, text.value, user, draws);
      UpdateFoundLands(post, target, p);
    }
  }

  /** `post '/:post_id/comments'`, after the post is found: a top-level comment. */
  function PostComment(post: Submission, text: Option<string>, user: UserName, draws: seq<string>)
    : (r: Result<Submission, Failure>)
    requires forall i :: 0 <= i < |draws| ==> IsBlock(draws[i])
    ensures r == Err(Refused(Validation.CommentBlank)) <==> text.None? || Text.AllSpace(text.value)
    ensures r == Err(NoFreshId) <==>
              text.Some? && !Text.AllSpace(text.value) && AddReply(post, text.value, user, draws).None?
    ensures r.Ok? <==> text.Some? && !Text.AllSpace(text.value) && AddReply(post, text.value, user, draws).Some?
    ensures r.Ok? ==> r == Ok(AddReply(post, text.value, user, draws).value)
  {
    match Validation.CommentSubmissionError(text)
    case Some(message) => Err(Refused(message))
    case None =>
      match AddReply(post, text.value, user, draws)
      case None => Err(NoFreshId)
      case Some(p) => Ok(p)
  }

  /** A top-level comment keeps the post's invariant and adds one to its comment count. */
  lemma PostCommentKeepsPost(post: Submission, text: Option<string>, user: UserName, draws: seq<string>)
    requires forall i :: 0 <= i < |draws| ==> IsBlock(draws[i])
    requires WellFormedPost(post)
    ensures var r := PostComment(post, text, user, draws);
            r.Ok? ==> WellFormedPost(r.value) && NumReplies(r.value) == NumReplies(post) + 1
  {
    if PostComment(post, text, user, draws).Ok? {
      AddReplyPreservesWellFormed(post, text.value, user, draws);
      AddReplyCountsOne(post, text.value, user, draws);
    }
  }
}

=== FILE: submissions.dfy ===
/**
 * Posts and comments: one tree-shaped datatype with the behaviour the
 * `Submission` base class shares (score, votes, replies, soft deletion)
 * and the two constructors.
 */
module Submissions {
  import opened Options
  import opened Ballots
  import opened Ids

  datatype Kind = PostKind | CommentKind

  /** What a `Post` (title and link) or a `Comment` (text) says. */
  datatype Content = PostContent(title: string, link: string) | CommentContent(text: string)

  /**
   * A live submission has an author, its vote lists and its content;
   * deletion overwrites all of them with the `:deleted` tombstone at once.
   */
  datatype Standing =
    | Live(author: UserName, ballot: Ballot, content: Content)
    | Deleted

  datatype Submission = Submission(id: string, kind: Kind, standing: Standing, replies: seq<Submission>)

  /** The score a deleted submission reports, below any live score in practice. */
  const DeletedScore: int := -10000

  /** `deleted?`: the author has been replaced by the tombstone. */
  predicate IsDeleted(s: Submission)
  {
    s.standing.Deleted?
  }

  /** `score`. */
  function Score(s: Submission): (r: int)
    ensures IsDeleted(s) ==> r == DeletedScore
    ensures !IsDeleted(s) && Valid(s.standing.ballot) ==>
              r == |Voters(s.standing.ballot.upvotes)| - |Voters(s.standing.ballot.downvotes)|
  {
    if IsDeleted(s) then DeletedScore
    else
      var b := s.standing.ballot;
      if Valid(b) then TallyCountsVoters(b); Tally(b) else Tally(b)
  }

  /** `upvoted?(u)`; the lists of a deleted submission are gone, so the call raises there. */
  predicate Upvoted(s: Submission, u: UserName)
    requires !IsDeleted(s)
  {
    u in s.standing.ballot.upvotes
  }

  /** `downvoted?(u)`; raises on a deleted submission. */
  predicate Downvoted(s: Submission, u: UserName)
    requires !IsDeleted(s)
  {
    u in s.standing.ballot.downvotes
  }

  /** With one vote per user, `upvoted?` and `downvoted?` never both hold. */
  lemma VoteQueriesExclusive(s: Submission, u: UserName)
    requires SoundStanding(s) && !IsDeleted(s)
    ensures !(Upvoted(s, u) && Downvoted(s, u))
  {
  }

  /** The same submission with its vote lists replaced. */
  function WithBallot(s: Submission, b: Ballot): (r: Submission)
    requires !IsDeleted(s)
    ensures !IsDeleted(r) && r.standing.ballot == b
    ensures r.id == s.id && r.kind == s.kind && r.replies == s.replies
    ensures r.standing.author == s.standing.author && r.standing.content == s.standing.content
  {
    s.(standing := s.standing.(ballot := b))
  }

  /** `upvote(u)` on a live submission (on a deleted one the call raises). */
  function Upvote(s: Submission, u: UserName): (r: Submission)
    requires !IsDeleted(s)
    ensures !IsDeleted(r) && Upvoted(r, u) && !Downvoted(r, u)
    ensures forall x :: x != u ==> (Upvoted(r, x) <==> Upvoted(s, x)) && (Downvoted(r, x) <==> Downvoted(s, x))
    ensures r.id == s.id && r.kind == s.kind && r.replies == s.replies
    ensures r.standing.author == s.standing.author && r.standing.content == s.standing.content
    ensures Valid(s.standing.ballot) ==>
              && Valid(r.standing.ballot)
              && Score(r) == Score(s) + (if Upvoted(s, u) then 0 else 1) + (if Downvoted(s, u) then 1 else 0)
  {
    WithBallot(s, Ballots.Upvote(s.standing.ballot, u))
  }

  /** `downvote(u)` on a live submission. */
  function Downvote(s: Submission, u: UserName): (r: Submission)
    requires !IsDeleted(s)
    ensures !IsDeleted(r) && Downvoted(r, u) && !Upvoted(r, u)
    ensures forall x :: x != u ==> (Upvoted(r, x) <==> Upvoted(s, x)) && (Downvoted(r, x) <==> Downvoted(s, x))
    ensures r.id == s.id && r.kind == s.kind && r.replies == s.replies
    ensures r.standing.author == s.standing.author && r.standing.content == s.standing.content
    ensures Valid(s.standing.ballot) ==>
              && Valid(r.standing.ballot)
              && Score(r) == Score(s) - (if Downvoted(s, u) then 0 else 1) - (if Upvoted(s, u) then 1 else 0)
  {
    WithBallot(s, Ballots.Downvote(s.standing.ballot, u))
  }

  /** `remove_vote(u)` on a live submission. */
  function RemoveVote(s: Submission, u: UserName): (r: Submission)
    requires !IsDeleted(s)
    ensures !IsDeleted(r) && !Upvoted(r, u) && !Downvoted(r, u)
    ensures forall x :: x != u ==> (Upvoted(r, x) <==> Upvoted(s, x)) && (Downvoted(r, x) <==> Downvoted(s, x))
    ensures r.id == s.id && r.kind == s.kind && r.replies == s.replies
    ensures r.standing.author == s.standing.author && r.standing.content == s.standing.content
    ensures Valid(s.standing.ballot) ==>
              && Valid(r.standing.ballot)
              && Score(r) == Score(s) - (if Upvoted(s, u) then 1 else 0) + (if Downvoted(s, u) then 1 else 0)
  {
    WithBallot(s, Ballots.RemoveVote(s.standing.ballot, u))
  }

  /**
   * `switch_to_deleted`: author, content and vote lists become the
   * tombstone; the id, the kind and the whole reply tree stay.
   */
  function SwitchToDeleted(s: Submission): (r: Submission)
    ensures IsDeleted(r) && Score(r) == DeletedScore
    ensures r.id == s.id && r.kind == s.kind && r.replies == s.replies
  {
    s.(standing := Deleted)
  }

  /** Every submission of a forest, each before its replies and its replies before its later siblings. */
  function Flatten(cs: seq<Submission>): seq<Submission>
  {
    if |cs| == 0 then [] else [cs[0]] + Flatten(cs[0].replies) + Flatten(cs[1..])
  }

  /** `num_replies`: each reply counts one plus its own `num_replies`, so every descendant counts once. */
  function NumReplies(s: Submission): (n: nat)
    ensures n == |Flatten(s.replies)|
    decreases s, 1
  {
    SumOfReplies(s.replies)
  }

  /** The `inject` of `num_replies` over a reply list: every submission of the forest counts once. */
  function SumOfReplies(cs: seq<Submission>): (n: nat)
    ensures n == |Flatten(cs)|
    decreases cs, 0
  {
    if |cs| == 0 then 0 else 1 + NumReplies(cs[0]) + SumOfReplies(cs[1..])
  }

  lemma {:induction false} FlattenAppend(a: seq<Submission>, b: seq<Submission>)
    ensures Flatten(a + b) == Flatten(a) + Flatten(b)
  {
    if |a| > 0 {
      assert (a + b)[0] == a[0] && (a + b)[1..] == a[1..] + b;
      FlattenAppend(a[1..], b);
    } else {
      assert a + b == b;
    }
  }

  /** The ids of a list of submissions, in order. */
  function IdsOf(cs: seq<Submission>): (r: seq<string>)
    ensures |r| == |cs| && forall i :: 0 <= i < |cs| ==> r[i] == cs[i].id
  {
    if |cs| == 0 then [] else [cs[0].id] + IdsOf(cs[1..])
  }

  /** What a reply's id starts with: the parent's id under a comment, nothing under a post. */
  function ReplyPrefix(parent: Submission): string
  {
    if parent.kind == CommentKind then parent.id else ""
  }

  /**
   * `add_reply(text, u)`: appends one new comment at the end of the replies.
   * `None` when every supplied draw collides with a sibling's id.
   */
  function AddReply(parent: Submission, text: string, author: UserName, draws: seq<string>): (r: Option<Submission>)
    requires forall i :: 0 <= i < |draws| ==> IsBlock(draws[i])
    ensures r.None? <==> forall i :: 0 <= i < |draws| ==> ReplyPrefix(parent) + draws[i] in IdsOf(parent.replies)
    ensures r.Some? ==>
              && r.value.id == parent.id && r.value.kind == parent.kind && r.value.standing == parent.standing
              && |r.value.replies| == |parent.replies| + 1
              && r.value.replies[..|parent.replies|] == parent.replies
    ensures r.Some? ==>
              var c := r.value.replies[|parent.replies|];
              && c.kind == CommentKind
              && c.standing == Live(author, Ballots.Empty, CommentContent(text))
              && c.replies == []
              && |c.id| == |ReplyPrefix(parent)| + 5
              && c.id[..|ReplyPrefix(parent)|] == ReplyPrefix(parent)
              && IsBlock(c.id[|ReplyPrefix(parent)|..])
              && forall i :: 0 <= i < |parent.replies| ==> parent.replies[i].id != c.id
  {
    match NewCommentId(ReplyPrefix(parent), IdsOf(parent.replies), draws)
    case None => None
    case Some(id) =>
      var c := Submission(id, CommentKind, Live(author, Ballots.Empty, CommentContent(text)), []);
      var r := parent.(replies := parent.replies + [c]);
      assert r.replies[..|parent.replies|] == parent.replies;
      Some(r)
  }

  /** A reply adds exactly one descendant. */
  lemma AddReplyCountsOne(parent: Submission, text: string, author: UserName, draws: seq<string>)
    requires forall i :: 0 <= i < |draws| ==> IsBlock(draws[i])
    requires AddReply(parent, text, author, draws).Some?
    ensures NumReplies(AddReply(parent, text, author, draws).value) == NumReplies(parent) + 1
  {
    var r := AddReply(parent, text, author, draws).value;
    var c := r.replies[|parent.replies|];
    assert r.replies == parent.replies + [c];
    FlattenAppend(parent.replies, [c]);
    assert Flatten([c]) == [c];
  }

  /** `Post.new(title, link, u, used_ids)` with the id drawn until it is unused. */
  function NewPost(title: string, link: string, author: UserName, usedIds: seq<string>, draws: seq<string>)
    : (r: Result<Submission, PostIdFailure>)
    requires forall i :: 0 <= i < |draws| ==> IsPostId(draws[i])
    ensures r.Ok? ==>
              && IsPostId(r.value.id) && r.value.id !in usedIds
              && r.value.kind == PostKind && r.value.replies == []
              && r.value.standing == Live(author, Ballots.Empty, PostContent(title, link))
              && Score(r.value) == 0
    ensures r.Err? <==> forall i :: 0 <= i < |draws| ==> draws[i] in usedIds
  {
    match NewPostId(usedIds, draws)
    case Err(e) => Err(e)
    case Ok(id) => Ok(Submission(id, PostKind, Live(author, Ballots.Empty, PostContent(title, link)), []))
  }

  /** A live submission's votes are one-per-user and its content matches its kind. */
  predicate SoundStanding(s: Submission)
  {
    s.standing.Live? ==>
      && Valid(s.standing.ballot)
      && (s.kind == PostKind <==> s.standing.content.PostContent?)
  }

  /**
   * The invariant of a reply list under a parent whose replies' ids start
   * with `prefix`: sibling ids differ, and every reply is a comment whose id
   * is the prefix followed by one block, recursively.
   */
  predicate WellFormedReplies(cs: seq<Submission>, prefix: string)
    decreases cs, 1
  {
    && (forall i, j :: 0 <= i < j < |cs| ==> cs[i].id != cs[j].id)
    && forall i :: 0 <= i < |cs| ==> WellFormedReply(cs[i], prefix)
  }

  predicate WellFormedReply(c: Submission, prefix: string)
    decreases c, 0
  {
    && c.kind == CommentKind
    && SoundStanding(c)
    && |c.id| == |prefix| + 5
    && c.id[..|prefix|] == prefix
    && IsBlock(c.id[|prefix|..])
    && WellFormedReplies(c.replies, c.id)
  }

  /** A post or comment whose own record and whole reply tree keep the invariant. */
  predicate WellFormed(s: Submission)
  {
    && SoundStanding(s)
    && (s.kind == PostKind ==> IsPostId(s.id))
    && WellFormedReplies(s.replies, ReplyPrefix(s))
  }

  lemma NewPostWellFormed(title: string, link: string, author: UserName, usedIds: seq<string>, draws: seq<string>)
    requires forall i :: 0 <= i < |draws| ==> IsPostId(draws[i])
    requires NewPost(title, link, author, usedIds, draws).Ok?
    ensures WellFormed(NewPost(title, link, author, usedIds, draws).value)
  {
  }

  /** Replying keeps the tree invariant: the new id is fresh among siblings and has the parent's prefix. */
  lemma AddReplyPreservesWellFormed(parent: Submission, text: string, author: UserName, draws: seq<string>)
    requires forall i :: 0 <= i < |draws| ==> IsBlock(draws[i])
    requires WellFormed(parent)
    requires AddReply(parent, text, author, draws).Some?
    ensures WellFormed(AddReply(parent, text, author, draws).value)
  {
    var r := AddReply(parent, text, author, draws).value;
    var c := r.replies[|parent.replies|];
    var prefix := ReplyPrefix(parent);
    assert r.replies == parent.replies + [c];
    assert WellFormedReply(c, prefix) by {
      assert c.replies == [] && Valid(Ballots.Empty);
    }
    AppendWellFormed(parent.replies, c, prefix);
    assert ReplyPrefix(r) == prefix;
  }

  /** Appending a well-formed reply whose id no sibling has keeps a reply list well formed. */
  lemma AppendWellFormed(cs: seq<Submission>, c: Submission, prefix: string)
    requires WellFormedReplies(cs, prefix) && WellFormedReply(c, prefix)
    requires forall i :: 0 <= i < |cs| ==> cs[i].id != c.id
    ensures WellFormedReplies(cs + [c], prefix)
  {
    var r := cs + [c];
    forall i | 0 <= i < |r|
      ensures WellFormedReply(r[i], prefix)
    {
      if i < |cs| {
        assert r[i] == cs[i];
      }
    }
  }

  /** Voting keeps the tree invariant. */
  lemma VotesPreserveWellFormed(s: Submission, u: UserName)
    requires WellFormed(s) && !IsDeleted(s)
    ensures WellFormed(Upvote(s, u)) && WellFormed(Downvote(s, u)) && WellFormed(RemoveVote(s, u))
  {
  }

  /** Deleting keeps the tree invariant. */
  lemma DeletePreservesWellFormed(s: Submission)
    requires WellFormed(s)
    ensures WellFormed(SwitchToDeleted(s))
  {
  }
}

=== FILE: text.dfy ===
/** Character classes, `String#strip` and decimal rendering as Ruby performs them. */
module Text {

  /** The characters `String#strip` removes and the regexp class `\s` matches. */
  predicate IsSpace(c: char)
  {
    c == ' ' || c == '\t' || c == '\n' || c == '\U{B}' || c == '\U{C}' || c == '\r'
  }

  /** The regexp class `\w`: ASCII letters, digits and the underscore. */
  predicate IsWordChar(c: char)
  {
    ('a' <= c <= 'z') || ('A' <= c <= 'Z') || ('0' <= c <= '9') || c == '_'
  }

  predicate IsLowerLetter(c: char)
  {
    'a' <= c <= 'z'
  }

  /** The characters `rand(1..9).to_s` can produce. */
  predicate IsNonZeroDigit(c: char)
  {
    '1' <= c <= '9'
  }

  predicate AllSpace(s: string)
  {
    forall i :: 0 <= i < |s| ==> IsSpace(s[i])
  }

  /** Number of leading whitespace characters of `s`. */
  function LeadingSpace(s: string): (n: nat)
    ensures n <= |s|
    ensures AllSpace(s[..n])
    ensures n < |s| ==> !IsSpace(s[n])
  {
    if |s| == 0 || !IsSpace(s[0]) then 0
    else
      var n := 1 + LeadingSpace(s[1..]);
      assert s[..n] == [s[0]] + s[1..][..n - 1];
      n
  }

  /** Number of trailing whitespace characters of `s`. */
  function TrailingSpace(s: string): (n: nat)
    ensures n <= |s|
    ensures AllSpace(s[|s| - n..])
    ensures n < |s| ==> !IsSpace(s[|s| - n - 1])
  {
    if |s| == 0 || !IsSpace(s[|s| - 1]) then 0
    else
      var n := 1 + TrailingSpace(s[..|s| - 1]);
      assert s[|s| - n..] == s[..|s| - 1][|s| - n..] + [s[|s| - 1]];
      n
  }

  /** `String#strip`: the longest infix of `s` that neither begins nor ends with whitespace. */
  function Strip(s: string): (r: string)
    ensures |r| <= |s|
    ensures r == [] <==> AllSpace(s)
    ensures r != [] ==> !IsSpace(r[0]) && !IsSpace(r[|r| - 1])
    ensures exists k ::
              && 0 <= k <= |s| - |r|
              && r == s[k..k + |r|]
              && AllSpace(s[..k])
              && AllSpace(s[k + |r|..])
  {
    var a := LeadingSpace(s);
    if a == |s| then
      StripAllSpace(s);
      []
    else
      var b := TrailingSpace(s[a..]);
      StripInner(s, a, b);
      s[a..|s| - b]
  }

  /** `s.strip.empty?`: the string holds nothing but whitespace. */
  function Blank(s: string): (b: bool)
    ensures b <==> AllSpace(s)
  {
    Strip(s) == []
  }

  lemma StripAllSpace(s: string)
    requires LeadingSpace(s) == |s|
    ensures AllSpace(s)
    ensures exists k ::
              && 0 <= k <= |s|
              && [] == s[k..k]
              && AllSpace(s[..k])
              && AllSpace(s[k..])
  {
    assert s[..|s|] == s;
    assert s[0..0] == [] && s[..0] == [] && s[0..] == s;
  }

  /** What remains between the leading and the trailing whitespace. */
  lemma StripInner(s: string, a: nat, b: nat)
    requires a == LeadingSpace(s) && a < |s| && b == TrailingSpace(s[a..])
    ensures a + b < |s|
    ensures !AllSpace(s)
    ensures var r := s[a..|s| - b];
            && r != []
            && !IsSpace(r[0]) && !IsSpace(r[|r| - 1])
            && exists k ::
                 && 0 <= k <= |s| - |r|
                 && r == s[k..k + |r|]
                 && AllSpace(s[..k])
                 && AllSpace(s[k + |r|..])
  {
    assert !IsSpace(s[a]);
    assert a + b < |s| && AllSpace(s[|s| - b..]) && !IsSpace(s[|s| - b - 1]) by {
      TrailingOfSuffix(s, a, b);
    }
    var r := s[a..|s| - b];
    assert r[0] == s[a] && r[|r| - 1] == s[|s| - b - 1];
    assert r == s[a..a + |r|] && s[a + |r|..] == s[|s| - b..];
  }

  /** The trailing whitespace of a suffix that starts with a non-space stops short of that start. */
  lemma TrailingOfSuffix(s: string, a: nat, b: nat)
    requires a < |s| && !IsSpace(s[a]) && b == TrailingSpace(s[a..])
    ensures a + b < |s| && AllSpace(s[|s| - b..]) && !IsSpace(s[|s| - b - 1])
  {
    var t := s[a..];
    assert t[0] == s[a];
    assert !AllSpace(t);
    assert t[|t| - b..] == s[|s| - b..];
    assert t[|t| - b - 1] == s[|s| - b - 1];
  }

  /** The decimal text `Integer#to_s` produces for a natural number. */
  function Decimal(n: nat): (r: string)
    ensures |r| >= 1
    ensures forall i :: 0 <= i < |r| ==> '0' <= r[i] <= '9'
    decreases n
  {
    if n < 10 then [Digit(n)] else Decimal(n / 10) + [Digit(n % 10)]
  }

  function Digit(d: nat): (c: char)
    requires d < 10
    ensures '0' <= c <= '9'
  {
    ('0' as int + d) as char
  }

  /** Reads decimal digits back into the number they denote. */
  function ParseDecimal(s: string): nat
    requires forall i :: 0 <= i < |s| ==> '0' <= s[i] <= '9'
  {
    if |s| == 0 then 0
    else 10 * ParseDecimal(s[..|s| - 1]) + ((s[|s| - 1] as int) - ('0' as int))
  }

  /** Rendering a count never loses it: the text reads back as the same number. */
  lemma {:induction false} DecimalRoundTrip(n: nat)
    ensures ParseDecimal(Decimal(n)) == n
    decreases n
  {
    if n >= 10 {
      var s := Decimal(n);
      assert s[..|s| - 1] == Decimal(n / 10) && s[|s| - 1] == Digit(n % 10);
      DecimalRoundTrip(n / 10);
    }
  }
}

=== FILE: timelabels.dfy ===
/**
 * The "… ago" labels. Two implementations exist and differ:
 * `TimeFormatter.calculate_elapsed` keeps every unit whose ratio is at
 * least 1 and takes the smallest ratio; the `calculate_time_passed`
 * helper walks the units while the elapsed time strictly exceeds each.
 * Elapsed time is an exact real number of seconds.
 */
module TimeLabels {
  import opened Text

  const SecondsPerMinute: nat := 60
  const SecondsPerHour: nat := 60 * SecondsPerMinute
  const SecondsPerDay: nat := 24 * SecondsPerHour
  const SecondsPerMonth: nat := 31 * SecondsPerDay
  const SecondsPerYear: nat := 365 * SecondsPerMonth

  datatype Unit = Unit(name: string, seconds: nat)

  /** `UNITS_IN_SECONDS` / `TIME_MEASURES_IN_SECONDS`, in insertion order. */
  const Units: seq<Unit> := [
    Unit("seconds", 1),
    Unit("minutes", SecondsPerMinute),
    Unit("hours", SecondsPerHour),
    Unit("days", SecondsPerDay),
    Unit("months", SecondsPerMonth),
    Unit("years", SecondsPerYear)
  ]

  lemma UnitFacts()
    ensures |Units| == 6
    ensures forall i :: 0 <= i < |Units| ==> Units[i].seconds > 0 && |Units[i].name| > 0
    ensures forall i, j :: 0 <= i < j < |Units| ==> Units[i].seconds < Units[j].seconds
    ensures SecondsPerYear == 365 * 31 * 86400
  {
  }

  function Size(k: nat): real
    requires k < |Units|
  {
    Units[k].seconds as real
  }

  /** `Float#round`: to the nearest integer, halves away from zero. */
  function Round(x: real): (r: int)
    ensures x >= 0.0 ==> r as real - 0.5 <= x < r as real + 0.5
    ensures x < 0.0 ==> r as real - 0.5 < x <= r as real + 0.5
  {
    if x >= 0.0 then (x + 0.5).Floor else -((-x + 0.5).Floor)
  }

  /** `unit[0...-1]`: the unit name without its trailing "s". */
  function Singular(name: string): (r: string)
    requires |name| > 0
    ensures |r| == |name| - 1 && r + [name[|name| - 1]] == name
  {
    name[..|name| - 1]
  }

  /** A count and the unit word that follows it. */
  datatype Label = Label(count: int, unit: string)

  /** `"#{count} #{unit} ago"`. */
  function Render(l: Label): (r: string)
    requires l.count >= 0
    ensures var d := Decimal(l.count);
            && |r| == |d| + |l.unit| + 5
            && r[..|d|] == d && ParseDecimal(r[..|d|]) == l.count
            && r[|d|] == ' ' && r[|d| + 1..|r| - 4] == l.unit && r[|r| - 4..] == " ago"
  {
    var d := Decimal(l.count);
    DecimalRoundTrip(l.count);
    var r := d + " " + l.unit + " ago";
    assert r[..|d|] == d;
    r
  }

  /** The unit word after a count: singular exactly when the count is 1. */
  function UnitWord(k: nat, count: int): (w: string)
    requires k < |Units|
    ensures count == 1 ==> w + "s" == Units[k].name
    ensures count != 1 ==> w == Units[k].name
  {
    UnitFacts();
    if count == 1 then Singular(Units[k].name) else Units[k].name
  }

  /** The label names unit `k`, in the singular exactly when the count is 1. */
  predicate NamesUnit(l: Label, k: nat)
    requires k < |Units|
  {
    l.unit == UnitWord(k, l.count)
  }

  /** Unit `k` is the largest unit no longer than `secs`. */
  predicate LargestUnitAtMost(secs: real, k: nat)
  {
    && k < |Units|
    && Size(k) <= secs
    && forall j :: k < j < |Units| ==> secs < Size(j)
  }

  /** Unit `k` is the largest unit strictly shorter than `secs`. */
  predicate LargestUnitBelow(secs: real, k: nat)
  {
    && k < |Units|
    && Size(k) < secs
    && forall j :: k < j < |Units| ==> secs <= Size(j)
  }

  lemma UnitChoiceUnique(secs: real, k1: nat, k2: nat)
    requires LargestUnitAtMost(secs, k1) && LargestUnitAtMost(secs, k2)
    ensures k1 == k2
  {
  }

  lemma UnitBelowUnique(secs: real, k1: nat, k2: nat)
    requires LargestUnitBelow(secs, k1) && LargestUnitBelow(secs, k2)
    ensures k1 == k2
  {
  }

  lemma {:induction false} RoundAtLeastOne(x: real)
    requires x >= 1.0
    ensures Round(x) >= 1
  {
  }

  /** A longer unit gives a smaller ratio. */
  lemma RatioDecreases(secs: real, a: real, b: real)
    requires secs > 0.0 && 0.0 < a < b
    ensures secs / b < secs / a
  {
    assert secs / b * b == secs;
    assert secs / a * a == secs;
  }

  lemma RatioAtLeastOne(secs: real, a: real)
    requires a > 0.0
    ensures secs / a >= 1.0 <==> secs >= a
  {
    assert secs / a * a == secs;
  }

  /** The largest unit at position `top` or below that is no longer than `secs`. */
  function LargestAtMost(secs: real, top: nat): (k: nat)
    requires secs >= 1.0 && top < |Units|
    requires forall j :: top < j < |Units| ==> secs < Size(j)
    ensures LargestUnitAtMost(secs, k) && k <= top
  {
    if top == 0 || Size(top) <= secs then top else LargestAtMost(secs, top - 1)
  }

  /** The unit a label for `secs` (at least one second) should use: the largest no longer than it. */
  function UnitFor(secs: real): (k: nat)
    requires secs >= 1.0
    ensures LargestUnitAtMost(secs, k)
  {
    UnitFacts();
    LargestAtMost(secs, |Units| - 1)
  }

  /** The largest unit strictly shorter than `secs`, more than one second. */
  function UnitBelow(secs: real, top: nat): (k: nat)
    requires secs > 1.0 && top < |Units|
    requires forall j :: top < j < |Units| ==> secs <= Size(j)
    ensures LargestUnitBelow(secs, k) && k <= top
  {
    UnitFacts();
    if top == 0 || Size(top) < secs then top else UnitBelow(secs, top - 1)
  }

  /** One entry of `UNITS_IN_SECONDS.map { … }`: a unit (by position) and the elapsed time in it. */
  datatype Measure = Measure(unit: nat, ratio: real)

  /** The ratios of the units from position `from` on. */
  function Measures(secs: real, from: nat): (r: seq<Measure>)
    ensures forall m :: m in r ==> from <= m.unit < |Units| && m.ratio == secs / Size(m.unit)
    ensures forall k :: from <= k < |Units| ==> Measure(k, secs / Size(k)) in r
    decreases |Units| - from
  {
    UnitFacts();
    if from >= |Units| then [] else [Measure(from, secs / Size(from))] + Measures(secs, from + 1)
  }

  /** `.select { |_, count| count >= 1 }`. */
  function AtLeastOne(ms: seq<Measure>): (r: seq<Measure>)
    ensures forall m :: m in r <==> m in ms && m.ratio >= 1.0
  {
    if |ms| == 0 then []
    else (if ms[0].ratio >= 1.0 then [ms[0]] else []) + AtLeastOne(ms[1..])
  }

  /** `.min_by { |_, count| count }`: the first entry with the smallest ratio. */
  function MinByRatio(ms: seq<Measure>): (m: Measure)
    requires |ms| > 0
    ensures m in ms && forall x :: x in ms ==> m.ratio <= x.ratio
  {
    if |ms| == 1 then ms[0]
    else
      var rest := MinByRatio(ms[1..]);
      if rest.ratio < ms[0].ratio then rest else ms[0]
  }

  /**
   * The smallest ratio among those at least 1 belongs to the largest unit
   * no longer than the elapsed time.
   */
  lemma {:induction false} SmallestRatioIsLargestUnit(secs: real)
    requires secs >= 1.0
    ensures var q := AtLeastOne(Measures(secs, 0));
            && |q| > 0
            && var m := MinByRatio(q);
            && LargestUnitAtMost(secs, m.unit)
            && m.ratio == secs / Size(m.unit)
            && Round(m.ratio) >= 1
            && |Units[m.unit].name| > 0
  {
    UnitFacts();
    var ms := Measures(secs, 0);
    var q := AtLeastOne(ms);
    var k := LargestAtMost(secs, 5);
    var best := Measure(k, secs / Size(k));
    assert best in ms;
    RatioAtLeastOne(secs, Size(k));
    assert best in q;
    var m := MinByRatio(q);
    var j := m.unit;
    assert m in ms && m.ratio >= 1.0;
    RatioAtLeastOne(secs, Size(j));
    assert Size(j) <= secs;
    if j < k {
      RatioDecreases(secs, Size(j), Size(k));
    }
    RoundAtLeastOne(m.ratio);
  }

  /** `TimeFormatter.calculate_elapsed`, as a count and unit. */
  function ElapsedLabel(secs: real): (r: Label)
    ensures r.count >= 1
    ensures secs < 1.0 ==> r == Label(1, "second")
    ensures secs >= 1.0 ==>
              var k := UnitFor(secs); r.count == Round(secs / Size(k)) && NamesUnit(r, k)
  {
    if secs < 1.0 then Label(1, "second")
    else
      var q := AtLeastOne(Measures(secs, 0));
      SmallestRatioIsLargestUnit(secs);
      var m := MinByRatio(q);
      var n := Round(m.ratio);
      var r := Label(n, if n == 1 then Singular(Units[m.unit].name) else Units[m.unit].name);
      UnitChoiceUnique(secs, m.unit, UnitFor(secs));
      assert NamesUnit(r, m.unit);
      r
  }

  /** `TimeFormatter.calculate_elapsed`: the label text. */
  function CalculateElapsed(secs: real): (r: string)
    ensures secs < 1.0 ==> r == "1 second ago"
    ensures secs >= 1.0 ==>
              var k := UnitFor(secs); var n := Round(secs / Size(k));
              n >= 1 && r == Decimal(n) + " " + UnitWord(k, n) + " ago"
  {
    if secs < 1.0 then "1 second ago"
    else Render(ElapsedLabel(secs))
  }

  /**
   * The `each` loop of `calculate_time_passed` from unit `k` on, with the
   * unit and count chosen so far.
   */
  function Walk(secs: real, k: nat, unit: nat, count: real): (r: (nat, real))
    requires unit < |Units|
    ensures r.0 < |Units|
    ensures || (r == (unit, count) && (k >= |Units| || !(secs > Size(k))))
            || (&& k <= r.0 && Size(r.0) < secs && r.1 == secs / Size(r.0)
                && (r.0 + 1 == |Units| || !(secs > Size(r.0 + 1))))
    decreases |Units| - k
  {
    if k >= |Units| || !(secs > Size(k)) then (unit, count)
    else Walk(secs, k + 1, k, secs / Size(k))
  }

  lemma {:induction false} WalkFindsLargestBelow(secs: real, k: nat, unit: nat, count: real)
    requires 0 < k <= |Units| && unit == k - 1 && Size(unit) < secs && count == secs / Size(unit)
    ensures var (u, c) := Walk(secs, k, unit, count);
            LargestUnitBelow(secs, u) && c == secs / Size(u)
    decreases |Units| - k
  {
    UnitFacts();
    if k < |Units| && secs > Size(k) {
      WalkFindsLargestBelow(secs, k + 1, k, secs / Size(k));
    }
  }

  /** `calculate_time_passed`, as a count and unit. */
  function TimePassedLabel(secs: real): (r: Label)
    ensures r.count >= 1
    ensures secs <= 1.0 ==> r == Label(1, "second")
    ensures secs > 1.0 ==>
              var k := UnitBelow(secs, |Units| - 1); r.count == Round(secs / Size(k)) && NamesUnit(r, k)
  {
    UnitFacts();
    var (u, c) := Walk(secs, 0, 0, 1.0);
    var n := Round(c);
    var r := Label(n, if n <= 1 then Singular(Units[u].name) else Units[u].name);
    if secs > 1.0 then
      var k := UnitBelow(secs, |Units| - 1);
      assert u == k && c == secs / Size(k) by {
        WalkFindsLargestBelow(secs, 1, 0, secs / Size(0));
        UnitBelowUnique(secs, u, k);
      }
      assert n >= 1 by {
        RatioAtLeastOne(secs, Size(u));
        RoundAtLeastOne(c);
      }
      assert NamesUnit(r, u);
      r
    else
      r
  }

  /** `calculate_time_passed`: the label text. */
  function CalculateTimePassed(secs: real): (r: string)
    ensures secs <= 1.0 ==> r == "1 second ago"
    ensures secs > 1.0 ==>
              var k := UnitBelow(secs, |Units| - 1); var n := Round(secs / Size(k));
              n >= 1 && r == Decimal(n) + " " + UnitWord(k, n) + " ago"
  {
    var l := TimePassedLabel(secs);
    if secs <= 1.0 then
      assert Decimal(1) == "1";
      Render(l)
    else Render(l)
  }

  /** A time that is not exactly one minute, hour, day, month or year. */
  predicate OffBoundary(secs: real)
  {
    forall k :: 1 <= k < |Units| ==> secs != Size(k)
  }

  lemma {:induction false} LabelOfUnit(l1: Label, l2: Label, k: nat)
    requires k < |Units| && l1.count == l2.count
    requires NamesUnit(l1, k) && NamesUnit(l2, k)
    ensures l1 == l2
  {
  }

  /**
   * Away from the unit boundaries the two labelings agree: for more than
   * one second, "largest unit at most" and "largest unit below" pick the
   * same unit.
   */
  lemma {:induction false} LabelsAgreeOffBoundary(secs: real)
    requires OffBoundary(secs)
    ensures ElapsedLabel(secs) == TimePassedLabel(secs)
    ensures CalculateElapsed(secs) == CalculateTimePassed(secs)
  {
    UnitFacts();
    var e := ElapsedLabel(secs);
    var p := TimePassedLabel(secs);
    if secs == 1.0 {
      var k := UnitFor(secs);
      assert k == 0;
      assert Round(1.0) == 1;
    } else if secs > 1.0 {
      var k := UnitFor(secs);
      var k2 := UnitBelow(secs, |Units| - 1);
      assert LargestUnitAtMost(secs, k2);
      UnitChoiceUnique(secs, k, k2);
      LabelOfUnit(e, p, k);
    }
  }

  /**
   * Exactly at a unit boundary (one minute, hour, day, month or year) the
   * first labeling says one of that unit.
   */
  lemma {:induction false} ElapsedOnBoundary(k: nat)
    requires 1 <= k < |Units|
    ensures ElapsedLabel(Size(k)) == Label(1, Singular(Units[k].name))
  {
    UnitFacts();
    var secs := Size(k);
    assert LargestUnitAtMost(secs, k);
    UnitChoiceUnique(secs, k, UnitFor(secs));
    assert secs / Size(k) == 1.0;
    assert Round(1.0) == 1;
    var e := ElapsedLabel(secs);
    assert e.count == 1;
    assert NamesUnit(e, k);
  }

  /** … while the second counts the unit below it. */
  lemma {:induction false} TimePassedOnBoundary(k: nat)
    requires 1 <= k < |Units|
    ensures TimePassedLabel(Size(k)) == Label(Round(Size(k) / Size(k - 1)), Units[k - 1].name)
    ensures Round(Size(k) / Size(k - 1)) > 1
  {
    UnitFacts();
    var secs := Size(k);
    assert UnitBelow(secs, |Units| - 1) == k - 1 by {
      assert LargestUnitBelow(secs, k - 1);
      UnitBelowUnique(secs, k - 1, UnitBelow(secs, |Units| - 1));
    }
    assert secs / Size(k - 1) >= 24.0 by {
      assert Size(k) >= 24.0 * Size(k - 1);
      RatioAtLeastOne(secs / 24.0, Size(k - 1));
    }
    var p := TimePassedLabel(secs);
    assert p.count > 1;
  }
}

/** Worked examples of the two labelings. */
module TimeLabelExamples {
  import opened Text
  import opened TimeLabels

  lemma {:induction false} RenderOneMinute(x: string)
    requires x == Render(Label(1, "minute"))
    ensures x == "1 minute ago"
  {
    assert Decimal(1) == "1";
  }

  lemma {:induction false} RenderSixtySeconds(x: string)
    requires x == Render(Label(60, "seconds"))
    ensures x == "60 seconds ago"
  {
    assert Decimal(60) == "60" by {
      assert Decimal(6) == "6";
    }
  }

  lemma {:induction false} RenderTwoHours(x: string)
    requires x == Render(Label(2, "hours"))
    ensures x == "2 hours ago"
  {
    assert Decimal(2) == "2";
  }

  lemma {:induction false} RenderTwoMinutes(x: string)
    requires x == Render(Label(2, "minutes"))
    ensures x == "2 minutes ago"
  {
    assert Decimal(2) == "2";
  }

  lemma ElapsedText(secs: real, l: Label)
    requires ElapsedLabel(secs) == l
    ensures CalculateElapsed(secs) == Render(l)
  {
  }

  lemma TimePassedText(secs: real, l: Label)
    requires TimePassedLabel(secs) == l
    ensures CalculateTimePassed(secs) == Render(l)
  {
  }

  lemma SingularMinutes(x: string)
    requires x == Singular(Units[1].name)
    ensures x == "minute"
  {
    UnitFacts();
  }

  lemma {:induction false} SixtySecondsElapsed(secs: real)
    requires secs == 60.0
    ensures ElapsedLabel(secs) == Label(1, "minute")
  {
    UnitFacts();
    assert LargestUnitAtMost(secs, 1);
    ElapsedWholeUnits(secs, 1, 1.0);
    assert Round(1.0) == 1;
    var e := ElapsedLabel(secs);
    assert e.unit == Singular(Units[1].name);
    SingularMinutes(e.unit);
  }

  lemma {:induction false} SixtySecondsPassed(secs: real)
    requires secs == 60.0
    ensures TimePassedLabel(secs) == Label(60, "seconds")
  {
    UnitFacts();
    assert Size(1) == secs;
    TimePassedOnBoundary(1);
    assert secs / Size(0) == 60.0;
    assert Round(60.0) == 60;
  }

  /** At exactly one minute the two labelings disagree. */
  lemma {:induction false} SixtySecondsLabels(secs: real)
    requires secs == 60.0
    ensures CalculateElapsed(secs) == "1 minute ago"
    ensures CalculateTimePassed(secs) == "60 seconds ago"
  {
    SixtySecondsElapsed(secs);
    ElapsedText(secs, Label(1, "minute"));
    RenderOneMinute(CalculateElapsed(secs));
    SixtySecondsPassed(secs);
    TimePassedText(secs, Label(60, "seconds"));
    RenderSixtySeconds(CalculateTimePassed(secs));
  }

  /** The elapsed label when `secs` is `ratio` times unit `k`. */
  lemma {:induction false} ElapsedWholeUnits(secs: real, k: nat, ratio: real)
    requires LargestUnitAtMost(secs, k) && secs / Size(k) == ratio
    ensures ElapsedLabel(secs).count == Round(ratio)
    ensures NamesUnit(ElapsedLabel(secs), k)
  {
    UnitChoiceUnique(secs, k, UnitFor(secs));
    var e := ElapsedLabel(secs);
    assert e.count == Round(secs / Size(k));
  }

  lemma {:induction false} TwoHoursCount(secs: real)
    requires secs == 7200.0
    ensures ElapsedLabel(secs) == Label(2, "hours")
  {
    UnitFacts();
    assert LargestUnitAtMost(secs, 2);
    ElapsedWholeUnits(secs, 2, 2.0);
    assert Round(2.0) == 2;
  }

  lemma {:induction false} TwoHoursLabel(secs: real)
    requires secs == 7200.0
    ensures CalculateElapsed(secs) == "2 hours ago"
    ensures CalculateTimePassed(secs) == "2 hours ago"
  {
    TwoHoursCount(secs);
    ElapsedText(secs, Label(2, "hours"));
    RenderTwoHours(CalculateElapsed(secs));
    UnitFacts();
    LabelsAgreeOffBoundary(secs);
  }

  lemma {:induction false} NinetySecondsCount(secs: real)
    requires secs == 90.0
    ensures ElapsedLabel(secs) == Label(2, "minutes")
  {
    UnitFacts();
    assert LargestUnitAtMost(secs, 1);
    ElapsedWholeUnits(secs, 1, 1.5);
    assert Round(1.5) == 2;
  }

  /** Ninety seconds is one and a half minutes, which rounds up. */
  lemma {:induction false} NinetySecondsLabel(secs: real)
    requires secs == 90.0
    ensures CalculateElapsed(secs) == "2 minutes ago"
  {
    NinetySecondsCount(secs);
    ElapsedText(secs, Label(2, "minutes"));
    RenderTwoMinutes(CalculateElapsed(secs));
  }

  lemma {:induction false} UnderASecondLabel(secs: real)
    requires secs < 1.0
    ensures CalculateElapsed(secs) == "1 second ago"
    ensures CalculateTimePassed(secs) == "1 second ago"
  {
    assert Decimal(1) == "1";
  }
}

=== FILE: validation.dfy ===
/**
 * The form validators: each runs its checks in a fixed order and answers
 * with the message of the first that fails, or with nothing when all pass.
 * A missing form field is `None`.
 */
module Validation {
  import opened Options
  import opened Text

  const UsernameMissing := "Must enter something for your username"
  const UsernameBlank := "Username must include alphanumeric characters"
  const UsernameTooLong := "Username must be less than 20 characters long"
  const UsernameBadCharacters := "Username can only include alphanumeric chacters and spaces"
  const UsernameTaken := "Sorry, that username is already taken"
  const PasswordMissing := "Must enter something for your password"
  const PasswordBlank := "Password must include non-space characters"
  const UnknownUser := "Sorry, we don't recognize that username"
  const SigninPasswordMissing := "Must enter a password"
  const WrongPassword := "Invalid password.  Please try again"
  const PostFieldsMissing := "Must enter a title and link"
  const TitleTooLong := "Title length must be 100 characters or less"
  const LinkNotHttp := "Link must be an http address"
  const CommentBlank := "Sorry, comment must have text"

  const MaxUsernameLength := 20
  const MaxTitleLength := 100

  /** The regexp `/[^\w\s]/` finds no match in `s`. */
  predicate OnlyWordsAndSpaces(s: string)
  {
    forall i :: 0 <= i < |s| ==> IsWordChar(s[i]) || IsSpace(s[i])
  }

  /** Stripping never changes whether a name passes the character check. */
  lemma StripKeepsCharacterCheck(s: string)
    ensures OnlyWordsAndSpaces(s) <==> OnlyWordsAndSpaces(Strip(s))
  {
    var r := Strip(s);
    var k :| && 0 <= k <= |s| - |r|
             && r == s[k..k + |r|]
             && AllSpace(s[..k])
             && AllSpace(s[k + |r|..]);
    InfixKeepsCharacterCheck(s, r, k);
  }

  /** Cutting whitespace off both ends never changes the character check. */
  lemma InfixKeepsCharacterCheck(s: string, r: string, k: nat)
    requires k + |r| <= |s| && r == s[k..k + |r|] && AllSpace(s[..k]) && AllSpace(s[k + |r|..])
    ensures OnlyWordsAndSpaces(s) <==> OnlyWordsAndSpaces(r)
  {
    if OnlyWordsAndSpaces(s) {
      forall i | 0 <= i < |r|
        ensures IsWordChar(r[i]) || IsSpace(r[i])
      {
        assert r[i] == s[k + i];
      }
    }
    if OnlyWordsAndSpaces(r) {
      forall i | 0 <= i < |s|
        ensures IsWordChar(s[i]) || IsSpace(s[i])
      {
        SpaceOrInner(s, r, k, i);
      }
    }
  }

  /** A character of `s` lies in the leading spaces, in `r`, or in the trailing spaces. */
  lemma SpaceOrInner(s: string, r: string, k: nat, i: nat)
    requires k + |r| <= |s| && r == s[k..k + |r|] && AllSpace(s[..k]) && AllSpace(s[k + |r|..])
    requires i < |s|
    ensures IsSpace(s[i]) || (k <= i < k + |r| && s[i] == r[i - k])
  {
    if i < k {
      assert s[..k][i] == s[i];
    } else if i >= k + |r| {
      assert s[k + |r|..][i - k - |r|] == s[i];
    }
  }

  /** `new_username_error`. */
  function NewUsernameError(name: Option<string>, taken: seq<string>): (r: Option<string>)
    ensures r == Some(UsernameMissing) <==> name.None?
    ensures r == Some(UsernameBlank) <==> name.Some? && AllSpace(name.value)
    ensures r == Some(UsernameTooLong) <==>
              name.Some? && !AllSpace(name.value) && |Strip(name.value)| > MaxUsernameLength
    ensures r == Some(UsernameBadCharacters) <==>
              && name.Some? && !AllSpace(name.value) && |Strip(name.value)| <= MaxUsernameLength
              && !OnlyWordsAndSpaces(name.value)
    ensures r == Some(UsernameTaken) <==>
              && name.Some? && !AllSpace(name.value) && |Strip(name.value)| <= MaxUsernameLength
              && OnlyWordsAndSpaces(name.value) && Strip(name.value) in taken
    ensures r.None? <==>
              && name.Some? && !AllSpace(name.value) && |Strip(name.value)| <= MaxUsernameLength
              && OnlyWordsAndSpaces(name.value) && Strip(name.value) !in taken
  {
    match name
    case None => Some(UsernameMissing)
    case Some(u) =>
      var s := Strip(u);
      if s == [] then Some(UsernameBlank)
      else if |s| > MaxUsernameLength then Some(UsernameTooLong)
      else if exists i :: 0 <= i < |u| && !IsWordChar(u[i]) && !IsSpace(u[i]) then Some(UsernameBadCharacters)
      else if s in taken then Some(UsernameTaken)
      else None
  }

  /** The names registration can store: 1 to 20 word characters and inner spaces. */
  predicate StorableName(n: string)
  {
    && 1 <= |n| <= MaxUsernameLength
    && OnlyWordsAndSpaces(n)
    && !IsSpace(n[0]) && !IsSpace(n[|n| - 1])
  }

  /**
   * A name is accepted exactly when its stripped form is storable and not
   * yet taken.
   */
  lemma {:induction false} UsernameAcceptedIff(u: string, taken: seq<string>)
    ensures NewUsernameError(Some(u), taken).None? <==> StorableName(Strip(u)) && Strip(u) !in taken
  {
    StripKeepsCharacterCheck(u);
  }

  /** A stripped length of exactly 20 is within the limit; 21 is not. */
  lemma UsernameLengthBoundary(u: string, taken: seq<string>)
    requires OnlyWordsAndSpaces(u) && Strip(u) !in taken
    ensures |Strip(u)| == 20 ==> NewUsernameError(Some(u), taken).None?
    ensures |Strip(u)| == 21 ==> NewUsernameError(Some(u), taken) == Some(UsernameTooLong)
  {
  }

  /** `new_password_error`. */
  function NewPasswordError(password: Option<string>): (r: Option<string>)
    ensures r.Some? <==> password.None? || AllSpace(password.value)
    ensures password.None? ==> r == Some(PasswordMissing)
    ensures password.Some? && AllSpace(password.value) ==> r == Some(PasswordBlank)
  {
    match password
    case None => Some(PasswordMissing)
    case Some(p) => if Blank(p) then Some(PasswordBlank) else None
  }

  /** A registered user: the stripped name and the stored credential for the password. */
  datatype User = User(name: string, credential: string)

  function Names(users: seq<User>): (r: seq<string>)
    ensures |r| == |users|
    ensures forall i :: 0 <= i < |users| ==> r[i] == users[i].name
  {
    if |users| == 0 then [] else [users[0].name] + Names(users[1..])
  }

  predicate DistinctNames(users: seq<User>)
  {
    forall i, j :: 0 <= i < j < |users| ==> users[i].name != users[j].name
  }

  /** `new_username_error(user_name) || new_password_error(password)`. */
  function RegistrationError(users: seq<User>, name: Option<string>, password: Option<string>): (r: Option<string>)
    ensures NewUsernameError(name, Names(users)).Some? ==> r == NewUsernameError(name, Names(users))
    ensures NewUsernameError(name, Names(users)).None? ==> r == NewPasswordError(password)
  {
    var e := NewUsernameError(name, Names(users));
    if e.Some? then e else NewPasswordError(password)
  }

  /**
   * `post '/register'`: on success the user list gains the stripped name
   * and the credential derived from the password (`seal` stands for the
   * BCrypt hash).
   */
  function Register(users: seq<User>, name: Option<string>, password: Option<string>, seal: string -> string)
    : (r: Result<seq<User>, string>)
    ensures r.Err? <==> RegistrationError(users, name, password).Some?
    ensures r.Err? ==> r.error == RegistrationError(users, name, password).value
    ensures r.Ok? ==> r.value == users + [User(Strip(name.value), seal(password.value))]
    ensures r.Ok? ==> StorableName(Strip(name.value)) && !AllSpace(password.value)
  {
    match RegistrationError(users, name, password)
    case Some(e) => Err(e)
    case None =>
      UsernameAcceptedIff(name.value, Names(users));
      Ok(users + [User(Strip(name.value), seal(password.value))])
  }

  /** Registration never creates a second user with the same name. */
  lemma {:induction false} RegisterKeepsNamesDistinct(
    users: seq<User>, name: Option<string>, password: Option<string>, seal: string -> string)
    requires DistinctNames(users)
    ensures var r := Register(users, name, password, seal);
            r.Ok? ==> DistinctNames(r.value) && |r.value| == |users| + 1
  {
    var r := Register(users, name, password, seal);
    if r.Ok? {
      var n := Strip(name.value);
      assert n !in Names(users);
      forall i | 0 <= i < |users|
        ensures users[i].name != n
      {
        assert Names(users)[i] == users[i].name;
      }
    }
  }

  /** `@users.detect { |user| user.name == username }`: the first user with that exact name. */
  function Detect(users: seq<User>, name: string): (r: Option<User>)
    ensures r.None? <==> forall i :: 0 <= i < |users| ==> users[i].name != name
    ensures r.Some? ==> r.value in users && r.value.name == name
    ensures r.Some? ==> exists i :: 0 <= i < |users| && users[i] == r.value
                                    && forall j :: 0 <= j < i ==> users[j].name != name
  {
    if |users| == 0 then None
    else if users[0].name == name then Some(users[0])
    else
      var r := Detect(users[1..], name);
      if r.Some? then
        var i :| 0 <= i < |users[1..]| && users[1..][i] == r.value
                 && forall j :: 0 <= j < i ==> users[1..][j].name != name;
        assert users[i + 1] == r.value;
        r
      else r
  }

  /**
   * `signin_attempt_error`; `correct` stands for `User#correct_password?`,
   * taking the stored credential and the attempted password.
   */
  function SigninAttemptError(users: seq<User>, name: Option<string>, password: Option<string>,
                              correct: (string, string) -> bool): (r: Option<string>)
    ensures r == Some(UnknownUser) <==> name.None? || Detect(users, name.value).None?
    ensures r == Some(SigninPasswordMissing) <==>
              name.Some? && Detect(users, name.value).Some? && password.None?
    ensures r == Some(WrongPassword) <==>
              && name.Some? && Detect(users, name.value).Some? && password.Some?
              && !correct(Detect(users, name.value).value.credential, password.value)
    ensures r.None? <==>
              && name.Some? && password.Some?
              && exists u :: u in users && u.name == name.value && correct(u.credential, password.value)
                             && Detect(users, name.value) == Some(u)
  {
    var attempted := if name.None? then None else Detect(users, name.value);
    if attempted.None? then Some(UnknownUser)
    else if password.None? then Some(SigninPasswordMissing)
    else if !correct(attempted.value.credential, password.value) then Some(WrongPassword)
    else None
  }

  /**
   * With distinct names, sign-in succeeds exactly when the one user of
   * that name accepts the password.
   */
  lemma {:induction false} SigninSucceedsIff(users: seq<User>, i: nat, password: string,
                                             correct: (string, string) -> bool)
    requires DistinctNames(users) && i < |users|
    ensures SigninAttemptError(users, Some(users[i].name), Some(password), correct).None?
            <==> correct(users[i].credential, password)
  {
    var d := Detect(users, users[i].name);
    var j :| 0 <= j < |users| && users[j] == d.value
             && forall k :: 0 <= k < j ==> users[k].name != users[i].name;
    assert j == i;
  }

  /** `link[0..3]`: at most the first four characters. */
  function LinkScheme(link: string): (r: string)
    ensures |r| == if |link| < 4 then |link| else 4
    ensures r <= link
  {
    if |link| < 4 then link else link[..4]
  }

  /** The scheme check passes exactly for links that start with "http". */
  lemma HttpScheme(link: string)
    ensures LinkScheme(link) == "http" <==> "http" <= link
  {
    if "http" <= link {
      assert LinkScheme(link) == link[..4];
    }
  }

  /** `post_submission_error`. */
  function PostSubmissionError(title: string, link: string): (r: Option<string>)
    ensures r == Some(PostFieldsMissing) <==> AllSpace(title) || AllSpace(link)
    ensures r == Some(TitleTooLong) <==>
              !AllSpace(title) && !AllSpace(link) && |title| > MaxTitleLength
    ensures r == Some(LinkNotHttp) <==>
              !AllSpace(title) && !AllSpace(link) && |title| <= MaxTitleLength && !("http" <= link)
    ensures r.None? <==>
              !AllSpace(title) && |title| <= MaxTitleLength && "http" <= link && !AllSpace(link)
  {
    var missing := Blank(title) || Blank(link);
    HttpScheme(link);
    if missing then Some(PostFieldsMissing)
    else if |title| > MaxTitleLength then Some(TitleTooLong)
    else if LinkScheme(link) != "http" then Some(LinkNotHttp)
    else None
  }

  /** Titles of up to 100 characters, counted before stripping, are accepted. */
  lemma TitleLengthBoundary(title: string, link: string)
    requires !AllSpace(title) && "http" <= link
    ensures |title| == 100 ==> PostSubmissionError(title, link).None?
    ensures |title| == 101 ==> PostSubmissionError(title, link) == Some(TitleTooLong)
  {
  }

  /** `comment_submission_error`. */
  function CommentSubmissionError(text: Option<string>): (r: Option<string>)
    ensures r.Some? <==> text.None? || AllSpace(text.value)
    ensures r.Some? ==> r.value == CommentBlank
  {
    if text.None? || Blank(text.value) then Some(CommentBlank) else None
  }
}

/** The validators on the inputs the application's test suite submits. */
module ValidationExamples {
  import opened Options
  import opened Text
  import opened Validation

  lemma BadCharactersRejected(u: string)
    requires u == "<>!!!User<><>"
    ensures NewUsernameError(Some(u), []) == Some(UsernameBadCharacters)
  {
    assert !IsSpace(u[0]) && !IsSpace(u[|u| - 1]);
    assert Strip(u) == u;
    assert !IsWordChar(u[0]) && !IsSpace(u[0]);
  }

  lemma LongNameRejected(u: string, taken: seq<string>)
    requires u == "This is longer than 20 characters"
    ensures NewUsernameError(Some(u), taken) == Some(UsernameTooLong)
  {
    assert !IsSpace(u[0]) && !IsSpace(u[|u| - 1]);
    assert Strip(u) == u;
  }

  lemma BlankNameRejected(u: string, taken: seq<string>)
    requires u == "     "
    ensures NewUsernameError(Some(u), taken) == Some(UsernameBlank)
  {
    assert AllSpace(u);
  }

  lemma DuplicateNameRejected(u: string)
    requires u == "User"
    ensures NewUsernameError(Some(u), ["User"]) == Some(UsernameTaken)
  {
    assert !IsSpace(u[0]) && !IsSpace(u[|u| - 1]);
    assert Strip(u) == u;
    assert OnlyWordsAndSpaces(u);
  }

  lemma BlankPasswordRejected(p: string)
    requires p == " "
    ensures NewPasswordError(Some(p)) == Some(PasswordBlank)
  {
    assert AllSpace(p);
  }

  lemma NonHttpLinkRejected(title: string, link: string)
    requires title == "Real Reddit" && link == "a link"
    ensures PostSubmissionError(title, link) == Some(LinkNotHttp)
  {
    assert !IsSpace(title[0]) && !IsSpace(link[0]);
    assert link[0] != "http"[0];
  }

  lemma EmptyTitleRejected(title: string, link: string)
    requires title == ""
    ensures PostSubmissionError(title, link) == Some(PostFieldsMissing)
  {
  }
}
